=== FILE: README.md ===
# vispy oogl textures, modelled in Dafny

This project models the texture part of vispy's object-oriented OpenGL layer
(`vispy.oogl`): the `_RawTexture` and `Texture` classes, the utilities
`get_format` and `convert_data`, and the pieces of the package itself that
textures rely on (`push_enable`/`pop_enable`, the reference-counted
replacement for `glPushAttrib`, and `GLObject.delete`, `__enter__` and
`__exit__`).

A texture is used with deferred ("lazy") loading: `set_data`, `set_storage`
and `set_parameter` only record what should happen, and the driver is touched
when the texture is entered (`with texture:`). Only then is pending data
converted, uploaded as a new texture or written into the existing one, and
only then are pending parameters sent.

The model is built from immutable values and pure functions:

- `Gl` is an abstract OpenGL driver. `Context` holds the state the texture
  code depends on: live texture names, bindings, the active unit, the unpack
  alignment, per-texture parameters, and enabled capabilities. It also holds
  the process-wide enable counter (`ENABLE_QUEUE`) and a trace of every driver
  call, so contracts can speak both about the resulting state and about the
  exact calls that were made, in order.
- `current: bool` says whether a usable rendering context is current. Without
  one, `glGenTextures` yields 0 and `glDeleteTextures` fails.
- Python exceptions that leave changes behind are modelled by
  `Outcome<S> = Returned(state) | Raised(state, error)`. For example,
  `set_data` has already reset an errored handle when an assertion fails, and
  `_enable` has already consumed the pending data when processing raises.
- Python dicts are insertion-ordered sequences of pairs (`Params.ParamDict`),
  because the order of `items()` and of `popitem()` is the order of the
  driver calls.
- Arrays are abstracted to their shape and element type. Contrast limits are
  a pair of integers.
- `ext_available` is a `Caps` parameter (3D textures, half floats, floats).
  The source's version answers "yes" to every query.
- `getattr(gl, name)` is a `names` map from attribute names to enums.

Modules follow the source: `EnableQueue` (`__init__.py`), `Formats`
(`get_format`, `_get_alignment`, `convert_data`, `DTYPES`), `Params`
(parameter dicts and names), `RawTexture` (`_RawTexture` and
`GLObject.delete`), `Texture` (the `Texture` class). `TextureProps` holds the
properties that span several calls, and `Scenarios` holds concrete runs.

Where the code and its documentation differ, the model follows the code:

- `set_data` and `set_storage` reset a negative (errored) handle to 0 and
  forget the shape. They do this as their first step, before any argument
  check, so the reset survives a failing assertion (`Texture.ClearError`,
  `Texture.SetData`).
- When no contrast limits are given, unsigned integer types other than
  `uint8` are given the limits `(0, 2**bits // 2)`. That is half the type's
  range, although the `set_data` docstring promises the full range.
  `Formats.UIntLimits` and `Formats.DerivedLimits` state the code's values.
- `__exit__` pops the target's enable even when `__enter__` returned without
  pushing it, which happens for an errored texture or one with no data yet.
  `TextureProps.ExitWithoutEnterPops` and
  `Scenarios.EmptyTextureExitDisablesOther` state the consequence: another
  texture that is still inside its `with` block loses the capability.
- `_upload` picks the unpack alignment from `data.shape[-1]`. For an image
  with channels, that is the channel count, not the row width.
  `RawTexture.UploadData` models exactly this.

## Model

| member | source | states |
|---|---|---|
| EnableQueue.PushEnable | vispy/oogl/__init__.py:51-59 | push_enable adds one to the capability's count, and calls glEnable exactly when the count was 0 |
| EnableQueue.PopEnable | vispy/oogl/__init__.py:62-70 | pop_enable takes one from the count but never goes below 0, and calls glDisable exactly when the count was 1 |
| EnableQueue.PushKeepsConsistent | vispy/oogl/__init__.py:51-59 | push_enable touches no other capability's count; if the counter agreed with the driver's enabled set before (positive count iff enabled), it still agrees |
| EnableQueue.PopKeepsConsistent | vispy/oogl/__init__.py:62-70 | the same frame and agreement for pop_enable |
| EnableQueue.PushNEffect | vispy/oogl/__init__.py:51-59 | n pushes add n to the count and make at most one driver call: a glEnable if n > 0 and the capability was unused |
| EnableQueue.PopNEffect | vispy/oogl/__init__.py:62-70 | n pops, with n at most the count, subtract n and make at most one driver call: a glDisable if they bring the count to 0 |
| EnableQueue.PushPopBalanced | vispy/oogl/__init__.py:51-70 | n pushes then n pops on an unused capability bring the count back to 0, with exactly one glEnable followed by one glDisable |
| EnableQueue.PopAtZeroIsSilent | vispy/oogl/__init__.py:67-70 | popping an unused capability keeps its count at 0 and makes no driver call |
| Formats.FirstDivisorIndex | vispy/oogl/texture.py:191-194 | the loop over candidate alignments stops at the first candidate that divides the width, and only after rejecting every earlier one |
| Formats.Alignment | vispy/oogl/texture.py:176-194 | the alignment is one of 4, 8, 2, 1 and divides the width; every candidate preferred to it does not divide the width; it is 4 iff 4 divides the width, so 8 is never chosen |
| Formats.GetFormat | vispy/oogl/texture.py:499-536 | for a 2D or 3D target, inference succeeds iff the shape has rank ndim, or rank ndim+1 with 1 to 4 channels; the result has that many channels and is never GL_ALPHA; a bad shape and an unknown target raise distinct errors |
| Formats.GetFormatByChannels | vispy/oogl/texture.py:505-531 | the inferred format is the format for the shape's channel count (1 for rank ndim), and every channel count 1 to 4 is inferred as its format |
| Formats.DerivedLimits | vispy/oogl/texture.py:577-590 | derived limits for a signed type are its full range (-2^(bits-1), 2^(bits-1)-1); for an unsigned type they are (0, 2^(bits-1)) |
| Formats.Prepare | vispy/oogl/texture.py:549-592 | the first chain accepts every type but unrecognised ones and always leaves uint8, float16 or float32 |
| Formats.ConvertData | vispy/oogl/texture.py:539-623 | conversion raises exactly for an unrecognised type, or when the limits it would apply are equal (given ones on anything but bool, where scaling divides by zero); its result is always a type the driver accepts (uint8 always, a float only when supported) with limits that differ; bool discards the limits; uint8 without limits passes through; float16 stays float16 exactly when half floats are supported, with or without limits, and otherwise becomes uint8; given limits are kept; floats without limits are not scaled (their limits stay unset); integers without limits get derived ones; without float support everything but float16 ends up uint8 |
| Formats.WellFormedConversion | vispy/oogl/texture.py:549-601 | for the types numpy has, conversion raises exactly for an unknown type or for equal given limits on anything but bool: derived limits never coincide |
| Formats.GlTypeOf | vispy/oogl/texture.py:30-33 | exactly uint8, float16 and float32 have a GL element type: unsigned byte, half float and float respectively |
| Params.Put | vispy/oogl/texture.py:256-257 | after d[k] = v, d.get(k) is v and every other key is unchanged; an existing key keeps its position, a new one goes last; keys stay unique |
| Params.LookupPrefix | vispy/oogl/texture.py:415 | popitem removes the last-inserted entry: the rest of the dict answers every other key as before, and unique keys stay unique |
| Params.Upper | vispy/oogl/texture.py:251 | upper-casing keeps the length and maps each character to its upper-case form |
| Params.QualifiedName | vispy/oogl/texture.py:250-254 | the attribute looked up always starts with "GL" and is never shorter than the name given |
| Params.Canonical | vispy/oogl/texture.py:249-254 | an enum is used as given; a string is upper-cased, prefixed with GL_TEXTURE_ unless it then starts with GL, and resolves to that attribute's value when the attribute exists, otherwise raises UnknownParameter |
| Params.CanonicalIgnoresCase | vispy/oogl/texture.py:251 | a parameter name and its upper-cased form resolve to the same result |
| Params.QualifiedPrefix | vispy/oogl/texture.py:251-253 | writing the GL_TEXTURE_ prefix by hand before a short name gives the attribute the short name would get |
| Params.CanonicalPrefix | vispy/oogl/texture.py:250-254 | a short name such as "min_filter" and its GL_TEXTURE_-prefixed form resolve to the same parameter |
| Params.Replay | vispy/oogl/texture.py:459-460 | the replay makes one glTexParameter call per entry, in insertion order, and changes nothing but the texture parameters and the trace |
| Params.ReplayApplies | vispy/oogl/texture.py:458-461 | after a replay the bound texture holds every entry of the dict; every other texture, and every parameter not in the dict, is unchanged |
| Params.Drain | vispy/oogl/texture.py:414-416 | the popitem loop makes one call per entry and changes nothing but the texture parameters and the trace |
| Params.DrainOrder | vispy/oogl/texture.py:414-416 | the entries reach the driver in reverse insertion order: entry i is the i-th call from the end |
| Params.DrainSendsParams | vispy/oogl/texture.py:414-416 | the loop sends only parameter calls on the texture's own target |
| Params.DrainApplies | vispy/oogl/texture.py:414-416 | after the loop the bound texture holds every entry of the dict; every other texture, and every parameter not in the dict, is unchanged |
| RawTexture.NewRaw | vispy/oogl/texture.py:42-54 | construction succeeds iff the target is 2D or 3D, and starts with handle 0 and no unit |
| RawTexture.DriverOrder | vispy/oogl/texture.py:164-166 | the size sent to the driver is the first ndim dimensions of the shape, reversed |
| RawTexture.Create | vispy/oogl/texture.py:57-58 | in a current context the new handle is positive, was not live before and is now a texture; without a context it is 0; exactly one Gen call is made and the bindings are untouched |
| RawTexture.Delete | vispy/oogl/__init__.py:105-114 | the handle always ends as 0; a positive handle in a current context is deleted with exactly one call; otherwise nothing happens, and a failing deletion is swallowed |
| RawTexture.DeleteIdempotent | vispy/oogl/__init__.py:105-114 | deleting a second time changes nothing |
| RawTexture.RawEnable | vispy/oogl/texture.py:64-73 | enabling binds the handle, adds one to the target's enable count and selects the remembered unit if there is one; the calls are exactly the possible glEnable, then the possible unit selection, then the bind |
| RawTexture.RawEnableKeepsConsistent | vispy/oogl/texture.py:64-73 | enabling leaves other targets' bindings and counts alone, keeps the counter in agreement with the driver, and the target ends enabled |
| RawTexture.RawDisable | vispy/oogl/texture.py:76-88 | disabling forgets the unit, unbinds the target, returns to unit 0 and pops the enable count (not below 0); the calls are exactly the possible unit selection, the unbind, the unit-0 selection and the possible glDisable |
| RawTexture.RawDisableKeepsConsistent | vispy/oogl/texture.py:76-88 | disabling leaves other targets' bindings and counts alone and keeps the counter in agreement with the driver |
| RawTexture.SizeAndType | vispy/oogl/texture.py:164-173 | size and type succeed iff the element type is in DTYPES, and give the driver-order size and that GL type |
| RawTexture.AllocateStorage | vispy/oogl/texture.py:91-109 | allocation is one data-less image call with the driver-order size of the shape, and changes nothing else |
| RawTexture.UploadData | vispy/oogl/texture.py:112-142 | an upload fails for a type outside DTYPES or an empty shape; otherwise it makes one image call, bracketed by setting and restoring the unpack alignment when the last dimension needs one other than 4, and leaves the alignment at 4 |
| RawTexture.UploadAligned | vispy/oogl/texture.py:132-142 | from the default state, the driver reads the data with an alignment that divides its last dimension, receives the data's own driver-order size, and ends at alignment 4 |
| RawTexture.UpdateData | vispy/oogl/texture.py:145-161 | a sub-image write succeeds iff the type is in DTYPES and the offset has one entry per dimension, and is exactly one call at that offset with the data's driver-order size |
| Texture.DefaultParams | vispy/oogl/texture.py:218-222 | a new texture has linear minification and magnification filters, and no other parameter |
| Texture.NewTexture | vispy/oogl/texture.py:204-232 | construction fails on an unsupported target or an unusable initial value; an array is accepted iff its rank fits the target and the format is known, and becomes the pending data with its shape; a shape tuple is accepted iff its rank fits, its dimensions are positive and the format is known, and becomes pending storage; the result has no handle, satisfies the object invariant, and has the defaults both set and pending |
| Texture.SetUnit | vispy/oogl/texture.py:235-239 | calling the texture records the unit and changes nothing else |
| Texture.SetParameter | vispy/oogl/texture.py:242-257 | it raises iff the name is unknown; otherwise the value is recorded and pending under the resolved enum, every other parameter is unchanged, and the object invariant is kept |
| Texture.ClearError | vispy/oogl/texture.py:288-291 | an errored handle becomes 0 and forgets the shape; a non-negative handle is untouched |
| Texture.SetData | vispy/oogl/texture.py:260-322 | set_data returns iff the rank, offset length, level and format are acceptable, and records exactly its arguments as pending, with offset zero when the same shape is set again on a resident texture; a raise still leaves the error reset behind; the object invariant is kept |
| Texture.SetStorage | vispy/oogl/texture.py:325-373 | set_storage returns iff the shortcut applies or the shape, level and format are acceptable; the shortcut changes nothing but the error reset; otherwise storage of the shape is pending; the object invariant is kept |
| Texture.ResolveFormat | vispy/oogl/texture.py:434-436 | a given format is used; otherwise it is inferred from the shape, and a missing shape is an error |
| Texture.PlaceUpdate | vispy/oogl/texture.py:438-443 | an update binds the texture first in every case, and succeeds iff the handle is a live texture and the write is possible; it then makes exactly the bind and one sub-image write, and never re-creates the texture |
| Texture.Recreate | vispy/oogl/texture.py:450-452 | the calls are exactly the deletion of the old texture (when there is one in a current context), the generation of a name and its bind; a current context ends with a fresh live handle that, for a driver that never reuses names, differs from the old one, which is no longer live; the enable state is untouched |
| Texture.Store | vispy/oogl/texture.py:453-457 | pending storage succeeds iff the shape is known and is then exactly one data-less image call with the recorded shape in driver order; an upload succeeds iff the type is in DTYPES and the shape is not empty; either way only the trace and the alignment change |
| Texture.PlaceUpload | vispy/oogl/texture.py:445-461 | a re-upload returns exactly when there is something to store (a known shape for storage; a driver element type and a non-empty shape for data); it gives a current context a fresh live handle and clears the pending parameters when it returns; without a context the handle is 0; nothing else of the texture changes |
| Texture.Place | vispy/oogl/texture.py:428-461 | an unresolvable format raises before any driver call; an update leaves the texture object unchanged; a returning re-upload clears the pending parameters; a non-negative handle stays non-negative in a valid context; once the format is known, a truthy offset goes to the update branch and anything else to the re-upload |
| Texture.ProcessPending | vispy/oogl/texture.py:419-461 | a conversion that raises (an unrecognised type, or equal limits on anything but bool) raises before any driver call; storage, and data that converts, are placed exactly as Place does, with the converted element type |
| Texture.Activate | vispy/oogl/texture.py:404-416 | no handle means no action; a handle the driver does not know raises; a handle the driver knows always activates: the texture is bound, its enable count goes up by one, and nothing is pending any more |
| Texture.Enable | vispy/oogl/texture.py:376-416 | an errored texture is left alone; a 3D texture without the extension becomes errored without a driver call; otherwise the pending data is consumed; the shape, parameters and unit never change |
| Texture.Disable | vispy/oogl/__init__.py:99-100 | leaving a with block forgets the unit, unbinds the target, returns to unit 0 and pops the enable count, with no texture created or deleted |
| Texture.DeleteTexture | vispy/oogl/__init__.py:105-114 | delete sets the handle to 0, and in a current context the driver no longer knows the old texture; shape, pending data and parameters are kept |
| TextureProps.EnableKeepsValid | vispy/oogl/texture.py:376-416 | entering keeps the object invariant, whether it returns or raises |
| TextureProps.DisableDeleteKeepValid | vispy/oogl/__init__.py:99-114 | exiting and deleting keep the object invariant |
| TextureProps.PlaceUploadApplies | vispy/oogl/texture.py:458-461 | a re-upload that returns leaves every parameter the user set on the new texture |
| TextureProps.ProcessPendingSyncs | vispy/oogl/texture.py:419-461 | processing keeps every non-pending parameter in place, and a re-upload applies every parameter |
| TextureProps.ActivateSyncs | vispy/oogl/texture.py:413-416 | sending the pending parameters keeps the texture synced, and afterwards every parameter is applied |
| TextureProps.EnableAppliesParams | vispy/oogl/texture.py:376-416 | after an entry that returns with a resident texture, the texture holds the latest value of every parameter ever set, and nothing is pending |
| TextureProps.SetDataKeepsSynced | vispy/oogl/texture.py:260-322 | set_data keeps a synced texture synced |
| TextureProps.SetStorageKeepsSynced | vispy/oogl/texture.py:325-373 | set_storage keeps a synced texture synced |
| TextureProps.SetParameterKeepsSynced | vispy/oogl/texture.py:242-257 | set_parameter keeps every other parameter synced |
| TextureProps.UnitExitDeleteKeepSynced | vispy/oogl/texture.py:235-239 | choosing a unit, exiting and deleting keep a synced texture synced |
| TextureProps.RawEnableEvents | vispy/oogl/texture.py:64-73 | the raw enable never creates, deletes or re-specifies a texture |
| TextureProps.ActivateEvents | vispy/oogl/texture.py:404-416 | activation never creates, deletes or re-specifies a texture |
| TextureProps.EnableAfterProcessing | vispy/oogl/texture.py:393-402 | a raise while processing passes through with the pending data consumed; a texture the driver does not know after processing becomes errored (handle -1) with no further call, and later entries leave it alone |
| TextureProps.ProcessPendingUpdates | vispy/oogl/texture.py:438-443 | when conversion succeeds, pending data with an offset into a resident texture is exactly a bind and one sub-image write of the data's size at that offset and level |
| TextureProps.SetDataSameShape | vispy/oogl/texture.py:307-312 | set_data without an offset, with the resident texture's own shape, records a write at offset zero |
| TextureProps.EnableWithUpdate | vispy/oogl/texture.py:393-443 | when conversion succeeds, entering with a pending write into the resident texture keeps the handle, starts with the bind and the sub-image write, and never re-creates the texture |
| TextureProps.SameShapeUpdatesInPlace | vispy/oogl/texture.py:264-265 | when conversion succeeds, data of the resident texture's shape is written into the same texture at offset zero at the next entry, with no generation, deletion, upload or allocation |
| TextureProps.PlaceUploadUploads | vispy/oogl/texture.py:445-457 | a returning re-upload of pending data sends an upload on the texture's target at the pending level |
| TextureProps.PlaceUploadAllocates | vispy/oogl/texture.py:445-455 | a returning re-upload of pending storage first deletes the old texture when there is one, and allocates storage of the recorded shape at the pending level |
| TextureProps.FirstEnableUploads | vispy/oogl/texture.py:445-461 | when conversion succeeds, the first entry after set_data in a current context generates a fresh texture, binds it, uploads the data into it and applies every parameter |
| TextureProps.EnableReuploadsData | vispy/oogl/texture.py:393-461 | in a current context, enabling after set_data with a new shape (no offset) returns whenever conversion and the format succeed: the old texture is deleted first, a fresh one is generated and bound, the data is uploaded and every parameter is applied |
| TextureProps.EnableAllocatesStorage | vispy/oogl/texture.py:393-461 | in a current context, enabling after set_storage returns whenever the shape and format are known: the old texture is deleted first, a fresh one is generated and bound, storage of the recorded shape is allocated and every parameter is applied |
| TextureProps.DeletedStaysEmpty | vispy/oogl/texture.py:404-406 | a deleted texture without new data enters without any driver call |
| TextureProps.ActivateCounts | vispy/oogl/texture.py:404-411 | activation pushes the target's enable exactly when it binds a texture, keeps the counter in agreement with the driver, and a raise changes nothing |
| TextureProps.EnableCounts | vispy/oogl/texture.py:376-411 | entering adds one to the count exactly when it ends with a resident texture, and keeps the counter in agreement with the driver |
| TextureProps.EnterExitBalanced | vispy/oogl/__init__.py:95-100 | a with block around a texture that ends resident restores the count, unbinds the target, and leaves the capability enabled iff another user still holds it |
| TextureProps.ExitWithoutEnterPops | vispy/oogl/__init__.py:95-100 | when entering did not make the texture resident, exiting still takes one from the count, and disables the capability when another user held it alone |
| TextureProps.CallThenEnableUsesUnit | vispy/oogl/texture.py:235-239 | texture(unit) followed by entering selects that unit immediately before the bind; exiting forgets the unit and returns to unit 0 |
| Scenarios.DefaultParamsInOrder | vispy/oogl/texture.py:221-222 | the defaults are held minification filter first |
| Scenarios.FirstRecreate | vispy/oogl/texture.py:450-452 | the first re-creation in a fresh context generates name 1 and binds it |
| Scenarios.ReplayDefaults | vispy/oogl/texture.py:459-460 | replaying the defaults sets both filters on texture 1 with two calls, in order |
| Scenarios.RgbImageConstructed | vispy/oogl/texture.py:204-232 | a 4x4 RGB byte image is constructed with its data pending and both defaults set |
| Scenarios.RgbImageReuploads | vispy/oogl/texture.py:424-436 | the RGB image needs no conversion and is inferred as RGB |
| Scenarios.RgbImageUploaded | vispy/oogl/texture.py:132-142 | rows of 3 bytes are uploaded with alignment 1, set before the upload and reset to 4 after it |
| Scenarios.RgbImageStored | vispy/oogl/texture.py:454-457 | filling the texture with the RGB image is that upload |
| Scenarios.RgbImagePlaced | vispy/oogl/texture.py:445-461 | the RGB image's re-upload gives texture 1, the upload and the replayed parameters |
| Scenarios.RgbImageProcessed | vispy/oogl/texture.py:419-461 | processing the RGB image is that re-upload |
| Scenarios.RgbProcessedCalls | vispy/oogl/texture.py:445-461 | the first processing makes exactly these calls: generate, bind, alignment 1, upload, alignment 4, the two filters; texture 1 is live and bound |
| Scenarios.ActivateResident | vispy/oogl/texture.py:404-416 | activating a resident texture with nothing pending on an unused target is glEnable then bind |
| Scenarios.RgbImageFirstUse | vispy/oogl/texture.py:376-416 | the first with block on the RGB image makes exactly the processing calls, then glEnable and bind |
| Scenarios.RgbImageSetAgain | vispy/oogl/texture.py:310-312 | the same data set again on the resident image is recorded as a write at offset (0, 0) |
| Scenarios.RgbImageUpdateProcessed | vispy/oogl/texture.py:438-443 | processing that write is a bind and a 4x4 sub-image write, and nothing else changes |
| Scenarios.RgbImageUpdateEnable | vispy/oogl/texture.py:393-416 | entering with that write pending is the bind, the write, then glEnable and bind |
| Scenarios.RgbImageFirstExit | vispy/oogl/texture.py:76-88 | leaving the first block keeps texture 1 resident and the count back at 0 |
| Scenarios.RgbImageUpdate | vispy/oogl/texture.py:264-265 | setting the same shape again after the first use writes into texture 1 at offset (0, 0) instead of re-creating it |
| Scenarios.StorageConstructed | vispy/oogl/texture.py:229-230 | a shape tuple as initial value records pending storage |
| Scenarios.StorageStored | vispy/oogl/texture.py:454-455 | storage for a 256x256 target is one luminance allocation, with no pixel-store calls |
| Scenarios.StorageProcessed | vispy/oogl/texture.py:445-461 | processing the storage makes exactly these calls: generate, bind, allocate, the two filters |
| Scenarios.StorageFirstUse | vispy/oogl/texture.py:376-416 | the first with block on the render target makes those calls, then glEnable and bind |
| Scenarios.NoContextErrors | vispy/oogl/texture.py:398-402 | without a current context no name is generated, so the texture becomes errored, and later entries do nothing |
| Scenarios.NoTexture3DExtension | vispy/oogl/texture.py:387-391 | a 3D texture without the extension becomes errored without a driver call, and keeps its pending storage |
| Scenarios.ConversionExamples | vispy/oogl/texture.py:577-601 | int8 gets (-128, 127), uint16 gets (0, 32768), int16 without float support becomes bytes, float64 keeps its limits as float32, bool drops its limits, complex64 is rejected, and uint8 with limits (3, 3) raises |
| Scenarios.EqualLimitsRaise | vispy/oogl/texture.py:600-601 | a texture given equal limits raises on entry, with its pending data consumed and no driver call |
| Scenarios.FormatExamples | vispy/oogl/texture.py:499-536 | sample shapes infer luminance, RGBA and luminance-alpha, or are rejected; widths 640, 6 and 7 get alignments 4, 2 and 1 |
| Scenarios.UpperExample | vispy/oogl/texture.py:251 | "min_filter" upper-cases to "MIN_FILTER" |
| Scenarios.QualifiedNameExample | vispy/oogl/texture.py:250-253 | "min_filter" names the attribute GL_TEXTURE_MIN_FILTER |
| Scenarios.ParameterNameExample | vispy/oogl/texture.py:249-254 | "min_filter" resolves to the minification-filter enum, and raises when the name is not known |
| Scenarios.EmptyConstructed | vispy/oogl/texture.py:225-226 | a texture constructed without data has nothing pending |
| Scenarios.EmptyTextureEnterExit | vispy/oogl/__init__.py:95-100 | entering the empty texture does nothing, and exiting it still pops, which disables a target held once |
| Scenarios.EmptyTextureExitDisablesOther | vispy/oogl/__init__.py:95-100 | a with block on an empty texture, nested inside one on a resident texture, disables the shared target under the outer block |

## Left out

- Real OpenGL calls and pixel data. The driver is an abstract state plus a
  trace of calls, and arrays are a shape and an element type.
- The pixel arithmetic of `convert_data` is not modelled: subtracting and
  scaling by the contrast limits, multiplying by 256 and clipping all act on
  floating-point values.
- Formats.ConvertData: states the element type and the contrast limits the
  conversion applies, not the converted values.
- Contrast limits are a pair of integers, not arbitrary Python numbers.
- The `print` warning when a texture is not valid after processing is not
  modelled; the handle still becomes -1.
- `ext_available` is the `Caps` parameter. The source's version always
  returns True; the model covers both answers.
- `GLObject.__del__` is left out: it only calls `delete`, when the garbage
  collector decides.
- `TextureCubeMap` is left out: its constructor raises `NotImplementedError`.
- `Texture2D` and `Texture3D` are left out as classes: they only fix the
  target, which is a constructor argument here.
- Python type checks made impossible by the types are left out: `data` that
  is not an array, `level` that is not an int, and the assertions that
  `clim` is a tuple of length 2 (vispy/oogl/texture.py:318), which
  `Option<Clim>` makes impossible.
- The modelled driver never reuses a texture name: `Gl.GlGenTexture` takes
  names from a counter that only grows. A real `glGenTextures` promises only
  a name unused at the time of the call, so after `glDeleteTextures` it may
  hand the same name back. The claims that a re-created texture's handle
  differs from the old one (`Texture.Recreate`) and is not among the names
  live before (`RawTexture.Create`, `TextureProps.FirstEnableUploads`,
  `TextureProps.EnableReuploadsData`, `TextureProps.EnableAllocatesStorage`)
  hold only for such a driver; the source neither promises nor relies on
  them. For the same reason `Gl.GlDeleteTexture` keeps a deleted texture's
  parameters without harm, where a driver reusing the name would start it
  from defaults.
- `str.upper()` is modelled for ASCII letters only.
- `getattr(gl, name)` is the `names` map. An unknown name raises, as the
  AttributeError does.
- `GLObject.handle` (a plain accessor) is not modelled separately.
- Params.Drain: its own contract states only the frame and the number of
  calls. The order of the calls is `Params.DrainOrder`, and their effect is
  `Params.DrainApplies`.
- Texture.Enable: its own contract states the early exits before processing
  and what is never touched. What happens after processing is stated in
  `TextureProps`: `EnableAfterProcessing` (a raise passes through, an unknown
  texture becomes errored), and `EnableAppliesParams`, `EnableCounts`,
  `SameShapeUpdatesInPlace`, `FirstEnableUploads`, `EnableReuploadsData` and
  `EnableAllocatesStorage` for what reaches the driver.
- Bindings are kept per target only, not per texture unit as OpenGL keeps
  them: a bind made while one unit is active and an unbind made while another
  is active act on the same binding in the model.
- `Formats.DType` admits ill-formed values such as `Unknown("float64")` or
  `Int(0)`, which numpy never produces; `DType.WellFormed` excludes them and
  `Formats.WellFormedConversion` states conversion for the well-formed ones.
- The enable counter is process-wide in the source but lives in `Context`
  here, which is equivalent while one rendering context is used.
- Dict order is modelled as in Python 3.7 and later, where `items()` follows
  insertion order and `popitem()` removes the last-inserted entry. Under
  Python 2, which the source also supports (vispy/oogl/texture.py:25-26), both orders are
  arbitrary, so `Params.Replay`, `Params.LookupPrefix`, `Params.DrainOrder` and
  the call orders in the scenarios hold only for the Python 3.7 order.
- Concurrency is not modelled: the source is single-threaded.

=== FILE: enable.dfy ===
/** oogl's replacement for glPushAttrib: a per-capability reference count
    (`ENABLE_QUEUE`) so that nested users of one capability only enable it
    on the first push and only disable it on the last pop. */
module EnableQueue {
  import opened Gl

  /** `ENABLE_QUEUE.get(cap, 0)`. */
  function Count(c: Context, cap: Target): nat {
    if cap in c.enableQueue then c.enableQueue[cap] else 0
  }

  /** The counter and the driver agree: a capability is enabled exactly when
      its count is positive. This holds as long as nobody else calls
      glEnable/glDisable on these capabilities. */
  ghost predicate Consistent(c: Context) {
    forall cap :: Count(c, cap) > 0 <==> cap in c.enabled
  }

  /** push_enable: glEnable only when the count was 0, then increment. */
  function PushEnable(c: Context, cap: Target): (r: Context)
    ensures Count(r, cap) == Count(c, cap) + 1
    ensures r.trace == c.trace + if Count(c, cap) == 0 then [Enabled(cap)] else []
  {
    var cur := Count(c, cap);
    var c1 := if cur == 0 then GlEnable(c, cap) else c;
    c1.(enableQueue := c1.enableQueue[cap := cur + 1])
  }

  /** pop_enable: glDisable only when the count was 1; the count never goes below 0. */
  function PopEnable(c: Context, cap: Target): (r: Context)
    ensures Count(r, cap) == if Count(c, cap) == 0 then 0 else Count(c, cap) - 1
    ensures r.trace == c.trace + if Count(c, cap) == 1 then [Disabled(cap)] else []
  {
    var cur := Count(c, cap);
    var c1 := if cur == 1 then GlDisable(c, cap) else c;
    c1.(enableQueue := c1.enableQueue[cap := if cur - 1 > 0 then cur - 1 else 0])
  }

  /** push_enable touches only its own capability's count and keeps the
      counter and the driver in agreement. */
  lemma PushKeepsConsistent(c: Context, cap: Target)
    ensures forall other :: other != cap ==> Count(PushEnable(c, cap), other) == Count(c, other)
    ensures Consistent(c) ==> Consistent(PushEnable(c, cap))
  {
    var r := PushEnable(c, cap);
    assert r.enabled == if Count(c, cap) == 0 then c.enabled + {cap} else c.enabled;
    assert r.enableQueue == c.enableQueue[cap := Count(c, cap) + 1];
  }

  /** Likewise pop_enable. */
  lemma PopKeepsConsistent(c: Context, cap: Target)
    ensures forall other :: other != cap ==> Count(PopEnable(c, cap), other) == Count(c, other)
    ensures Consistent(c) ==> Consistent(PopEnable(c, cap))
  {
    var r := PopEnable(c, cap);
    var cur := Count(c, cap);
    assert r.enabled == if cur == 1 then c.enabled - {cap} else c.enabled;
    var next: nat := if cur > 1 then cur - 1 else 0;
    assert r.enableQueue == c.enableQueue[cap := next];
  }

  /** `n` consecutive push_enable calls on one capability. */
  function PushN(c: Context, cap: Target, n: nat): Context
    decreases n
  {
    if n == 0 then c else PushN(PushEnable(c, cap), cap, n - 1)
  }

  /** `n` consecutive pop_enable calls on one capability. */
  function PopN(c: Context, cap: Target, n: nat): Context
    decreases n
  {
    if n == 0 then c else PopN(PopEnable(c, cap), cap, n - 1)
  }

  /** Pushing `n` times adds `n` to the count and calls glEnable once, and
      only if the capability was not in use. */
  lemma {:induction false} PushNEffect(c: Context, cap: Target, n: nat)
    ensures Count(PushN(c, cap, n), cap) == Count(c, cap) + n
    ensures c.trace <= PushN(c, cap, n).trace
    ensures Since(c, PushN(c, cap, n)) == if n > 0 && Count(c, cap) == 0 then [Enabled(cap)] else []
    decreases n
  {
    if n > 0 {
      var c1 := PushEnable(c, cap);
      PushNEffect(c1, cap, n - 1);
      SinceAppend(c, c1, PushN(c1, cap, n - 1));
    }
  }

  /** Popping `n <= count` times subtracts `n` and calls glDisable once,
      and only if the count reaches 0. */
  lemma {:induction false} PopNEffect(c: Context, cap: Target, n: nat)
    requires n <= Count(c, cap)
    ensures Count(PopN(c, cap, n), cap) == Count(c, cap) - n
    ensures c.trace <= PopN(c, cap, n).trace
    ensures Since(c, PopN(c, cap, n)) == if n > 0 && Count(c, cap) == n then [Disabled(cap)] else []
    decreases n
  {
    if n > 0 {
      var c1 := PopEnable(c, cap);
      PopNEffect(c1, cap, n - 1);
      SinceAppend(c, c1, PopN(c1, cap, n - 1));
    }
  }

  /** N pushes then N pops from an unused capability return its count to 0
      with exactly one glEnable and one glDisable, whatever N is. */
  lemma PushPopBalanced(c: Context, cap: Target, n: nat)
    requires Count(c, cap) == 0 && n > 0
    ensures Count(PopN(PushN(c, cap, n), cap, n), cap) == 0
    ensures Since(c, PopN(PushN(c, cap, n), cap, n)) == [Enabled(cap), Disabled(cap)]
  {
    var pushed := PushN(c, cap, n);
    PushNEffect(c, cap, n);
    PopNEffect(pushed, cap, n);
    SinceAppend(c, pushed, PopN(pushed, cap, n));
  }

  /** Popping an unused capability changes nothing and calls nothing. */
  lemma PopAtZeroIsSilent(c: Context, cap: Target)
    requires Count(c, cap) == 0
    ensures Count(PopEnable(c, cap), cap) == 0
    ensures PopEnable(c, cap).trace == c.trace
  {
  }
}

=== FILE: formats.dfy ===
/** The texture module's pure utilities: unpack alignment, pixel format
    inference from a shape, and element-type conversion (`convert_data`)
    at the level of element types and contrast limits. */
module Formats {
  import opened Results
  import opened Gl

  /** numpy element types, by the way `convert_data` tells them apart by name. */
  datatype DType =
    | Bool
    | UInt(bits: nat)      // "uint<bits>"
    | Int(bits: nat)       // "int<bits>"
    | Float(bits: nat)     // "float<bits>"
    | Unknown(name: string) // anything else, e.g. "complex64" or "object"
  {
    /** A type numpy can have: sized types have at least one bit, and an
        unknown name is one that no branch of `convert_data` matches
        ("float64" is `Float(64)`, never `Unknown("float64")`). */
    predicate WellFormed() {
      match this
      case Bool => true
      case UInt(bits) => bits >= 1
      case Int(bits) => bits >= 1
      case Float(bits) => bits >= 1
      case Unknown(name) =>
        && name != "bool" && !HasInfix(name, "float")
        && !HasPrefix(name, "int") && !HasPrefix(name, "uint")
    }
  }

  /** `s.startswith(w)`. */
  predicate HasPrefix(s: string, w: string) {
    |w| <= |s| && s[..|w|] == w
  }

  /** `w in s`. */
  predicate HasInfix(s: string, w: string)
    decreases |s|
  {
    HasPrefix(s, w) || (|s| > 0 && HasInfix(s[1..], w))
  }

  /** An array, abstracted to its shape and element type. */
  datatype Array = Array(shape: seq<nat>, dtype: DType)

  /** Contrast limits (min, max). */
  datatype Clim = Clim(lo: int, hi: int)

  /** What `convert_data` produces: the element type of the returned array,
      and the contrast limits it applied to the values. */
  datatype Converted = Converted(dtype: DType, clim: Option<Clim>)

  // ---------------------------------------------------------------- alignment

  /** Unpack alignments in order of preference: 4 is the driver default. */
  const AlignmentPreference: seq<int> := [4, 8, 2, 1]

  /** Index of the first candidate that divides `width`, or `|cands|`. */
  function FirstDivisorIndex(cands: seq<int>, width: nat): (k: nat)
    requires forall i :: 0 <= i < |cands| ==> cands[i] > 0
    ensures k <= |cands|
    ensures k < |cands| ==> width % cands[k] == 0
    ensures forall i :: 0 <= i < k ==> width % cands[i] != 0
  {
    if |cands| == 0 then 0
    else if width % cands[0] == 0 then 0
    else 1 + FirstDivisorIndex(cands[1..], width)
  }

  /** _get_alignment: the first of 4, 8, 2, 1 that divides the row width. */
  function Alignment(width: nat): (a: int)
    ensures a in AlignmentPreference && width % a == 0
    ensures forall i :: 0 <= i < |AlignmentPreference| && AlignmentPreference[i] == a ==>
              forall j :: 0 <= j < i ==> width % AlignmentPreference[j] != 0
    ensures a == 4 <==> width % 4 == 0
    ensures a != 8
  {
    var k := FirstDivisorIndex(AlignmentPreference, width);
    assert k < 4 by {
      assert width % AlignmentPreference[3] == 0;
    }
    AlignmentPreference[k]
  }

  // ---------------------------------------------------------------- formats

  /** The format a pixel of `n` components is stored in, when not given. */
  function FormatForChannels(n: int): Option<PixelFormat> {
    if n == 1 then Some(Luminance)
    else if n == 2 then Some(LuminanceAlpha)
    else if n == 3 then Some(Rgb)
    else if n == 4 then Some(Rgba)
    else None
  }

  /** get_format: infer the format from the shape for a 2D or 3D target.
      A shape of rank ndim is single-channel; rank ndim+1 takes its channel
      count from the trailing dimension; anything else raises. */
  function GetFormat(shape: seq<int>, target: Target): (r: Result<PixelFormat>)
    ensures !target.Supported() ==> r == Err(UnknownTargetForFormat)
    ensures target.Supported() ==>
              (r.Ok? <==> |shape| == target.Ndim() || (|shape| == target.Ndim() + 1 && 1 <= shape[target.Ndim()] <= 4))
    ensures r.Err? && target.Supported() ==> r.error == InvalidShapeForFormat
    ensures r.Ok? ==> r.value != Alpha && r.value.Recognised()
    ensures r.Ok? ==> r.value.Channels() == if |shape| == target.Ndim() then 1 else shape[target.Ndim()]
  {
    if target.Supported() then
      var n := target.Ndim();
      if |shape| == n then Ok(Luminance)
      else if |shape| == n + 1 && shape[n] == 1 then Ok(Luminance)
      else if |shape| == n + 1 && shape[n] == 2 then Ok(LuminanceAlpha)
      else if |shape| == n + 1 && shape[n] == 3 then Ok(Rgb)
      else if |shape| == n + 1 && shape[n] == 4 then Ok(Rgba)
      else Err(InvalidShapeForFormat)
    else
      Err(UnknownTargetForFormat)
  }

  /** The inferred format is the one for the shape's channel count, and
      conversely every channel count 1..4 is inferred as its own format. */
  lemma GetFormatByChannels(shape: seq<int>, target: Target)
    requires target.Supported()
    ensures GetFormat(shape, target).Ok? ==>
              Some(GetFormat(shape, target).value) ==
                FormatForChannels(if |shape| == target.Ndim() then 1 else shape[target.Ndim()])
    ensures |shape| == target.Ndim() + 1 && FormatForChannels(shape[target.Ndim()]).Some? ==>
              GetFormat(shape, target) == Ok(FormatForChannels(shape[target.Ndim()]).value)
  {
  }

  // ---------------------------------------------------------------- conversion

  function Pow2(n: nat): (r: nat)
    ensures r >= 1
  {
    if n == 0 then 1 else 2 * Pow2(n - 1)
  }

  /** Limits derived for a signed integer type: `max = 2**bits; (-max//2, max//2 - 1)`.
      Dafny's `/` rounds toward minus infinity for a positive divisor, like Python's `//`. */
  function IntLimits(bits: nat): Clim {
    var max: int := Pow2(bits);
    Clim((-max) / 2, max / 2 - 1)
  }

  /** Limits derived for an unsigned integer type: `(0, max//2)`, half the
      type's range, exactly as the source computes it. */
  function UIntLimits(bits: nat): Clim {
    var max: int := Pow2(bits);
    Clim(0, max / 2)
  }

  /** For `bits >= 1` the signed limits are the type's full range and the
      unsigned upper limit is 2^(bits-1). */
  lemma {:induction false} DerivedLimits(bits: nat)
    requires bits >= 1
    ensures IntLimits(bits) == Clim(-(Pow2(bits - 1) as int), Pow2(bits - 1) - 1)
    ensures UIntLimits(bits) == Clim(0, Pow2(bits - 1))
  {
    var h: int := Pow2(bits - 1);
    assert Pow2(bits) == 2 * h;
    assert (-(2 * h)) / 2 == -h;
    assert (2 * h) / 2 == h;
  }

  /** The first chain of `convert_data`: pick the working element type and
      the contrast limits to apply. */
  function Prepare(d: DType, clim: Option<Clim>): (r: Result<Converted>)
    ensures r.Ok? <==> !d.Unknown?
    ensures r.Ok? ==> r.value.dtype in {UInt(8), Float(16), Float(32)}
  {
    if d == Bool then Ok(Converted(UInt(8), None))
    else if d == UInt(8) then
      (if clim.Some? then Ok(Converted(Float(32), clim)) else Ok(Converted(UInt(8), None)))
    else if d == Float(16) then Ok(Converted(Float(16), clim))
    else if d == Float(32) then Ok(Converted(Float(32), clim))
    else if d.Float? then Ok(Converted(Float(32), clim))
    else if d.Int? then Ok(Converted(Float(32), if clim.Some? then clim else Some(IntLimits(d.bits))))
    else if d.UInt? then Ok(Converted(Float(32), if clim.Some? then clim else Some(UIntLimits(d.bits))))
    else Err(UnknownDType)
  }

  /** The final chain of `convert_data`: keep a type the driver takes,
      otherwise scale a float down to unsigned bytes. */
  function Materialise(d: DType, caps: Caps): Result<DType> {
    if d == UInt(8) then Ok(d)
    else if d == Float(16) && caps.halfFloat then Ok(d)
    else if d == Float(32) && caps.float then Ok(d)
    else if d == Float(16) || d == Float(32) then Ok(UInt(8))
    else Err(ConversionFailed)
  }

  /** Limits with nothing between them: scaling by `1.0 / (hi - lo)` divides by zero. */
  predicate ZeroSpan(clim: Option<Clim>) {
    clim.Some? && clim.value.lo == clim.value.hi
  }

  /** convert_data, at the level of element types and limits. */
  function ConvertData(d: DType, clim: Option<Clim>, caps: Caps): (r: Result<Converted>)
    // it raises for an unrecognised type, and when the limits it would apply
    // are equal (given ones, or those derived for a zero-bit integer type);
    // the final "should not happen" cannot
    ensures r.Err? <==> || d.Unknown?
                        || (d != Bool && ZeroSpan(clim))
                        || (clim.None? && (d == Int(0) || d == UInt(0)))
    ensures d.Unknown? ==> r == Err(UnknownDType)
    ensures r.Err? && !d.Unknown? ==> r.error == ZeroClimSpan
    // the output is always something the driver accepts, scaled by limits that differ
    ensures r.Ok? ==> || r.value.dtype == UInt(8)
                      || (r.value.dtype == Float(16) && caps.halfFloat)
                      || (r.value.dtype == Float(32) && caps.float)
    ensures r.Ok? ==> GlTypeOf(r.value.dtype).Ok? && !ZeroSpan(r.value.clim)
    // bool becomes bytes and its limits are discarded
    ensures d == Bool ==> r == Ok(Converted(UInt(8), None))
    // bytes without limits pass through untouched
    ensures d == UInt(8) && clim.None? ==> r == Ok(Converted(UInt(8), None))
    // given limits are kept
    ensures d != Bool && clim.Some? && r.Ok? ==> r.value.clim == clim
    // floats without limits are not scaled
    ensures d.Float? && clim.None? && r.Ok? ==> r.value.clim.None?
    // integer types without limits get derived ones
    ensures d.Int? && d.bits >= 1 && clim.None? ==> r.Ok? && r.value.clim == Some(IntLimits(d.bits))
    ensures d.UInt? && d.bits >= 1 && d != UInt(8) && clim.None? ==> r.Ok? && r.value.clim == Some(UIntLimits(d.bits))
    // floats are only ever produced when the driver supports them
    ensures r.Ok? && r.value.dtype == Float(16) ==> d == Float(16)
    ensures r.Ok? && r.value.dtype == Float(32) ==> d != Float(16) && d != Bool && !(d == UInt(8) && clim.None?)
    ensures r.Ok? && caps.float && d != Bool && d != Float(16) && !(d == UInt(8) && clim.None?) ==>
              r.value.dtype == Float(32)
    ensures r.Ok? && !caps.float && d != Float(16) ==> r.value.dtype == UInt(8)
    // half floats pass through, with or without limits, exactly when the driver takes them
    ensures d == Float(16) && caps.halfFloat && r.Ok? ==> r.value.dtype == Float(16)
    ensures d == Float(16) && !caps.halfFloat && r.Ok? ==> r.value.dtype == UInt(8)
  {
    var p :- Prepare(d, clim);
    if ZeroSpan(p.clim) then Err(ZeroClimSpan)
    else
      match Materialise(p.dtype, caps)
      case Ok(out) => Ok(Converted(out, p.clim))
      case Err(e) => Err(e)
  }

  /** For the types numpy has, conversion raises exactly for an unknown
      type, or for given limits that are equal on anything but bool. */
  lemma WellFormedConversion(d: DType, clim: Option<Clim>, caps: Caps)
    requires d.WellFormed()
    ensures ConvertData(d, clim, caps).Err? <==> d.Unknown? || (d != Bool && ZeroSpan(clim))
  {
  }

  /** The `DTYPES` table: element types the driver can take directly. */
  function GlTypeOf(d: DType): (r: Result<GlType>)
    ensures r.Ok? <==> d in {UInt(8), Float(16), Float(32)}
    ensures r == Ok(UnsignedByte) <==> d == UInt(8)
    ensures r == Ok(HalfFloat) <==> d == Float(16)
  {
    if d == UInt(8) then Ok(UnsignedByte)
    else if d == Float(16) then Ok(HalfFloat)
    else if d == Float(32) then Ok(FloatType)
    else Err(UntranslatableDType)
  }
}

=== FILE: gl.dfy ===
/** An abstract OpenGL driver.

    The texture code only ever talks to the driver through a handful of
    calls. Each call is a function from driver state to driver state that
    updates the few pieces of state the texture code depends on (which
    names are textures, what is bound, the active unit, the unpack
    alignment, the per-texture parameters, the enabled capabilities) and
    appends one event to a trace, so that contracts can speak both about
    the resulting state and about the calls that were made.
 */
module Gl {
  import opened Results

  /** Texture targets. Only 2D and 3D textures are implemented. */
  datatype Target = Texture2D | Texture3D | TextureCubeMap | OtherTarget(code: int) {
    predicate Supported() {
      Texture2D? || Texture3D?
    }

    /** Number of spatial dimensions: `{GL_TEXTURE_2D: 2, GL_TEXTURE_3D: 3}.get(target, 0)`. */
    function Ndim(): nat {
      if Texture2D? then 2 else if Texture3D? then 3 else 0
    }
  }

  /** Pixel formats; `OtherFormat` stands for any enum the texture code does not accept. */
  datatype PixelFormat = Luminance | LuminanceAlpha | Rgb | Rgba | Alpha | OtherFormat(code: int) {
    /** The formats accepted by `set_data` and `set_storage`. */
    predicate Recognised() {
      !OtherFormat?
    }

    /** Number of components per pixel. */
    function Channels(): nat {
      match this
      case Luminance => 1
      case LuminanceAlpha => 2
      case Rgb => 3
      case Rgba => 4
      case Alpha => 1
      case OtherFormat(_) => 0
    }
  }

  /** The three element types that can be uploaded without conversion. */
  datatype GlType = UnsignedByte | HalfFloat | FloatType

  /** Optional driver capabilities (the source's `ext_available` queries). */
  datatype Caps = Caps(texture3D: bool, halfFloat: bool, float: bool)

  // Parameter names and values, as numbered by the OpenGL ES 2.0 headers.
  const TEXTURE_MAG_FILTER: int := 0x2800
  const TEXTURE_MIN_FILTER: int := 0x2801
  const LINEAR: int := 0x2601

  /** One driver call. */
  datatype Event =
    | Enabled(cap: Target)
    | Disabled(cap: Target)
    | ActiveTexture(unit: int)
    | Bind(target: Target, handle: int)
    | Gen(handle: int)
    | Delete(handle: int)
    | PixelStore(alignment: int)
      // glTexImage with data; records the unpack alignment the driver reads it with
    | Upload(target: Target, level: int, format: PixelFormat, size: seq<int>, gltype: GlType, alignment: int)
      // glTexImage without data
    | Allocate(target: Target, level: int, format: PixelFormat, size: seq<int>)
      // glTexSubImage
    | Update(target: Target, level: int, offset: seq<int>, size: seq<int>, format: PixelFormat, gltype: GlType)
    | TexParameter(target: Target, param: int, value: int)

  /** Everything shared by the GL objects of one rendering context: the
      driver's state, the trace of calls, and the process-wide enable counter
      (`ENABLE_QUEUE`) that oogl keeps beside it. `current` is false when no
      usable context is current: then names cannot be generated and
      deletions fail. */
  datatype Context = Context(
    current: bool,
    live: set<int>,
    nextName: int,
    activeUnit: int,
    bound: map<Target, int>,
    unpackAlignment: int,
    objectParams: map<(int, int), int>,
    enabled: set<Target>,
    enableQueue: map<Target, nat>,
    trace: seq<Event>)
  {
    /** Names are positive and handed out in increasing order. */
    ghost predicate Valid() {
      && nextName >= 1
      && forall h :: h in live ==> 0 < h < nextName
    }
  }

  /** A fresh context: nothing created, nothing bound, default pixel store. */
  function Fresh(current: bool): (c: Context)
    ensures c.Valid() && c.live == {} && c.trace == []
  {
    Context(current, {}, 1, 0, map[], 4, map[], {}, map[], [])
  }

  /** The calls made between two snapshots of one context. */
  function Since(before: Context, after: Context): seq<Event> {
    if |before.trace| <= |after.trace| then after.trace[|before.trace|..] else []
  }

  lemma SinceAppend(a: Context, b: Context, c: Context)
    requires a.trace <= b.trace <= c.trace
    ensures Since(a, c) == Since(a, b) + Since(b, c)
  {
    assert c.trace == a.trace + Since(a, b) + Since(b, c);
  }

  function Emit(c: Context, e: Event): Context {
    c.(trace := c.trace + [e])
  }

  /** The texture currently bound to `target` (0 when none). */
  function Binding(c: Context, target: Target): int {
    if target in c.bound then c.bound[target] else 0
  }

  /** The value of parameter `param` on texture object `handle`, if set. */
  function ParamOf(c: Context, handle: int, param: int): Option<int> {
    if (handle, param) in c.objectParams then Some(c.objectParams[(handle, param)]) else None
  }

  function GlIsTexture(c: Context, handle: int): bool {
    handle in c.live
  }

  /** glGenTextures(1): a fresh positive name, or 0 without a current context. */
  function GlGenTexture(c: Context): (r: (Context, int))
    ensures c.Valid() ==> r.0.Valid()
    ensures c.current && c.Valid() ==> r.1 > 0 && r.1 !in c.live && r.0.live == c.live + {r.1}
    ensures !c.current ==> r.1 == 0 && r.0.live == c.live
    ensures Since(c, r.0) == [Gen(r.1)] && c.trace <= r.0.trace
    ensures r.0.bound == c.bound && r.0.objectParams == c.objectParams
    ensures r.0.enableQueue == c.enableQueue && r.0.enabled == c.enabled
    ensures r.0.activeUnit == c.activeUnit && r.0.unpackAlignment == c.unpackAlignment
  {
    if c.current then
      var h := c.nextName;
      (Emit(c, Gen(h)).(live := c.live + {h}, nextName := h + 1), h)
    else
      (Emit(c, Gen(0)), 0)
  }

  /** glDeleteTextures([handle]). Without a current context the call fails;
      the boolean says whether it succeeded. A deleted texture that was
      bound reverts to binding 0, as OpenGL specifies. */
  function GlDeleteTexture(c: Context, handle: int): (r: (Context, bool))
    ensures r.1 == c.current
    ensures !r.1 ==> r.0 == c
    ensures r.1 ==> r.0.live == c.live - {handle} && Since(c, r.0) == [Delete(handle)]
    ensures r.1 ==> forall t :: Binding(r.0, t) == (if Binding(c, t) == handle then 0 else Binding(c, t))
    ensures c.trace <= r.0.trace && r.0.objectParams == c.objectParams
    ensures r.0.enableQueue == c.enableQueue && r.0.enabled == c.enabled
    ensures r.0.activeUnit == c.activeUnit && r.0.unpackAlignment == c.unpackAlignment
    ensures c.Valid() ==> r.0.Valid()
  {
    if c.current then
      var bound := map t | t in c.bound :: if c.bound[t] == handle then 0 else c.bound[t];
      (Emit(c, Delete(handle)).(live := c.live - {handle}, bound := bound), true)
    else
      (c, false)
  }

  function GlBindTexture(c: Context, target: Target, handle: int): Context {
    Emit(c, Bind(target, handle)).(bound := c.bound[target := handle])
  }

  /** glActiveTexture(GL_TEXTURE0 + unit). */
  function GlActiveTexture(c: Context, unit: int): Context {
    Emit(c, ActiveTexture(unit)).(activeUnit := unit)
  }

  /** glPixelStorei(GL_UNPACK_ALIGNMENT, alignment). */
  function GlPixelStore(c: Context, alignment: int): Context {
    Emit(c, PixelStore(alignment)).(unpackAlignment := alignment)
  }

  /** glTexImage with pixel data; the driver reads rows with the current unpack alignment. */
  function GlTexImage(c: Context, target: Target, level: int, format: PixelFormat, size: seq<int>, gltype: GlType): Context {
    Emit(c, Upload(target, level, format, size, gltype, c.unpackAlignment))
  }

  /** glTexImage with a null pointer: storage without content. */
  function GlTexAllocate(c: Context, target: Target, level: int, format: PixelFormat, size: seq<int>): Context {
    Emit(c, Allocate(target, level, format, size))
  }

  function GlTexSubImage(c: Context, target: Target, level: int, offset: seq<int>, size: seq<int>, format: PixelFormat, gltype: GlType): Context {
    Emit(c, Update(target, level, offset, size, format, gltype))
  }

  /** glTexParameter: sets a parameter of the texture bound to `target`. */
  function GlTexParameter(c: Context, target: Target, param: int, value: int): Context {
    Emit(c, TexParameter(target, param, value)).(objectParams := c.objectParams[(Binding(c, target), param) := value])
  }

  function GlEnable(c: Context, cap: Target): Context {
    Emit(c, Enabled(cap)).(enabled := c.enabled + {cap})
  }

  function GlDisable(c: Context, cap: Target): Context {
    Emit(c, Disabled(cap)).(enabled := c.enabled - {cap})
  }
}

=== FILE: params.dfy ===
/** Texture parameters: the two insertion-ordered dictionaries a texture
    keeps (`_texture_params`, `_pending_params`), the canonicalisation of
    parameter names in `set_parameter`, and the two loops that send a
    dictionary to the driver (replay in insertion order after a re-upload,
    and the `popitem` drain in `_enable`). */
module Params {
  import opened Results
  import opened Gl

  /** A Python dict from parameter enum to value. Order matters because it
      is the order in which the driver is called. */
  type ParamDict = seq<(int, int)>

  ghost predicate UniqueKeys(pd: ParamDict) {
    forall i, j :: 0 <= i < j < |pd| ==> pd[i].0 != pd[j].0
  }

  /** Position of key `k`, or `|pd|` when absent. */
  function IndexOf(pd: ParamDict, k: int): (i: nat)
    ensures i <= |pd|
    ensures i < |pd| ==> pd[i].0 == k
    ensures forall j :: 0 <= j < i ==> pd[j].0 != k
  {
    if |pd| == 0 then 0
    else if pd[0].0 == k then 0
    else 1 + IndexOf(pd[1..], k)
  }

  /** `d.get(k)`. */
  function Lookup(pd: ParamDict, k: int): Option<int> {
    var i := IndexOf(pd, k);
    if i < |pd| then Some(pd[i].1) else None
  }

  /** `IndexOf` is the first position holding the key. */
  lemma IndexOfIs(pd: ParamDict, k: int, i: nat)
    requires i <= |pd|
    requires i < |pd| ==> pd[i].0 == k
    requires forall j :: 0 <= j < i ==> pd[j].0 != k
    ensures IndexOf(pd, k) == i
  {
    var m := IndexOf(pd, k);
  }

  /** Replacing the value of an existing key. */
  lemma {:induction false} LookupReplace(pd: ParamDict, i: nat, k: int, v: int, j: int)
    requires i < |pd| && pd[i].0 == k && IndexOf(pd, k) == i
    ensures Lookup(pd[i := (k, v)], j) == if j == k then Some(v) else Lookup(pd, j)
  {
    var r := pd[i := (k, v)];
    if j == k {
      IndexOfIs(r, k, i);
    } else {
      IndexOfIs(r, j, IndexOf(pd, j));
    }
  }

  /** Appending a new key. */
  lemma {:induction false} LookupAppend(pd: ParamDict, k: int, v: int, j: int)
    requires IndexOf(pd, k) == |pd|
    ensures Lookup(pd + [(k, v)], j) == if j == k then Some(v) else Lookup(pd, j)
  {
    var r := pd + [(k, v)];
    if j == k {
      IndexOfIs(r, k, |pd|);
    } else {
      var ip := IndexOf(pd, j);
      if ip < |pd| {
        IndexOfIs(r, j, ip);
      } else {
        IndexOfIs(r, j, |r|);
      }
    }
  }

  /** `d[k] = v`: an existing key keeps its place, a new one goes last. */
  function Put(pd: ParamDict, k: int, v: int): (r: ParamDict)
    ensures Lookup(r, k) == Some(v)
    ensures forall j :: j != k ==> Lookup(r, j) == Lookup(pd, j)
    ensures UniqueKeys(pd) ==> UniqueKeys(r)
    ensures Lookup(pd, k).Some? ==> |r| == |pd| && forall i :: 0 <= i < |pd| ==> r[i].0 == pd[i].0
    ensures Lookup(pd, k).None? ==> r == pd + [(k, v)]
  {
    var i := IndexOf(pd, k);
    if i < |pd| then
      var r := pd[i := (k, v)];
      assert forall j :: Lookup(r, j) == if j == k then Some(v) else Lookup(pd, j) by {
        forall j { LookupReplace(pd, i, k, v, j); }
      }
      r
    else
      var r := pd + [(k, v)];
      assert forall j :: Lookup(r, j) == if j == k then Some(v) else Lookup(pd, j) by {
        forall j { LookupAppend(pd, k, v, j); }
      }
      r
  }

  /** The dict after `popitem()`: everything but the last entry. */
  lemma LookupPrefix(pd: ParamDict)
    requires |pd| > 0
    ensures forall p :: Lookup(pd, p).None? ==> p != pd[|pd| - 1].0 && Lookup(pd[..|pd| - 1], p).None?
    ensures UniqueKeys(pd) ==> UniqueKeys(pd[..|pd| - 1])
    ensures UniqueKeys(pd) ==>
              forall p :: Lookup(pd, p) == if p == pd[|pd| - 1].0 then Some(pd[|pd| - 1].1) else Lookup(pd[..|pd| - 1], p)
  {
    var pre := pd[..|pd| - 1];
    var last := pd[|pd| - 1].0;
    forall p | Lookup(pd, p).None?
      ensures p != last && Lookup(pre, p).None?
    {
      IndexOfIs(pre, p, |pre|);
    }
    if UniqueKeys(pd) {
      forall p
        ensures Lookup(pd, p) == if p == last then Some(pd[|pd| - 1].1) else Lookup(pre, p)
      {
        IndexOfIs(pd, last, |pd| - 1);
        if p != last {
          var i := IndexOf(pre, p);
          IndexOfIs(pd, p, if i < |pre| then i else |pd|);
        }
      }
    }
  }

  /** The dict without its first entry. */
  lemma LookupTail(pd: ParamDict)
    requires |pd| > 0
    ensures forall p :: Lookup(pd, p).None? ==> p != pd[0].0 && Lookup(pd[1..], p).None?
    ensures UniqueKeys(pd) ==> UniqueKeys(pd[1..])
    ensures forall p :: Lookup(pd, p) == if p == pd[0].0 then Some(pd[0].1) else Lookup(pd[1..], p)
  {
  }

  // ---------------------------------------------------------------- names

  /** A parameter as `set_parameter` receives it: an enum or a string name. */
  datatype Param = ParamEnum(code: int) | ParamName(name: string)

  function UpperChar(ch: char): char {
    if 'a' <= ch <= 'z' then (ch as int - 'a' as int + 'A' as int) as char else ch
  }

  /** `str.upper()` on ASCII letters. */
  function Upper(s: string): (r: string)
    ensures |r| == |s|
    ensures forall i :: 0 <= i < |s| ==> r[i] == UpperChar(s[i])
  {
    if |s| == 0 then "" else [UpperChar(s[0])] + Upper(s[1..])
  }

  function StartsWithGL(s: string): bool {
    |s| >= 2 && s[0] == 'G' && s[1] == 'L'
  }

  /** The attribute of the `gl` module a string parameter names. */
  function QualifiedName(s: string): (r: string)
    ensures StartsWithGL(r)
    ensures |r| >= |s|
  {
    var u := Upper(s);
    if StartsWithGL(u) then u else "GL_TEXTURE_" + u
  }

  /** The enum `set_parameter` stores under: strings are upper-cased, given
      the `GL_TEXTURE_` prefix unless they already start with `GL`, and
      looked up in the `gl` module's names (`names`); an unknown name raises. */
  function Canonical(p: Param, names: map<string, int>): (r: Result<int>)
    ensures p.ParamEnum? ==> r == Ok(p.code)
    ensures p.ParamName? && r.Ok? ==> exists n :: n in names && StartsWithGL(n) && names[n] == r.value
    ensures p.ParamName? && r.Err? ==> r.error == UnknownParameter
    // a name that already starts with GL is looked up as upper-cased ...
    ensures p.ParamName? && StartsWithGL(Upper(p.name)) ==>
              r == if Upper(p.name) in names then Ok(names[Upper(p.name)]) else Err(UnknownParameter)
    // ... and any other name with the GL_TEXTURE_ prefix
    ensures p.ParamName? && !StartsWithGL(Upper(p.name)) ==>
              r == if "GL_TEXTURE_" + Upper(p.name) in names then Ok(names["GL_TEXTURE_" + Upper(p.name)])
                   else Err(UnknownParameter)
  {
    match p
    case ParamEnum(code) => Ok(code)
    case ParamName(s) =>
      var q := QualifiedName(s);
      if q in names then Ok(names[q]) else Err(UnknownParameter)
  }

  /** Names are case-insensitive. */
  lemma {:induction false} CanonicalIgnoresCase(s: string, names: map<string, int>)
    ensures Canonical(ParamName(s), names) == Canonical(ParamName(Upper(s)), names)
  {
    assert Upper(Upper(s)) == Upper(s) by {
      assert forall i :: 0 <= i < |s| ==> UpperChar(UpperChar(s[i])) == UpperChar(s[i]);
    }
  }

  /** `upper` works character by character. */
  lemma UpperConcat(a: string, b: string)
    ensures Upper(a + b) == Upper(a) + Upper(b)
  {
    var w := Upper(a + b);
    forall i | 0 <= i < |w| ensures w[i] == (Upper(a) + Upper(b))[i] {
      if i < |a| {
        assert (a + b)[i] == a[i];
      } else {
        assert (a + b)[i] == b[i - |a|];
      }
    }
  }

  /** The prefix is already upper case. */
  lemma UpperPrefix()
    ensures Upper("GL_TEXTURE_") == "GL_TEXTURE_"
  {
    var s := "GL_TEXTURE_";
    assert forall i :: 0 <= i < |s| ==> !('a' <= s[i] <= 'z');
  }

  /** Qualifying a short name by hand gives the same attribute name. */
  lemma QualifiedPrefix(s: string)
    requires !StartsWithGL(Upper(s))
    ensures QualifiedName("GL_TEXTURE_" + s) == QualifiedName(s)
  {
    var prefix := "GL_TEXTURE_";
    UpperConcat(prefix, s);
    UpperPrefix();
    var w := prefix + Upper(s);
    assert w[0] == 'G' && w[1] == 'L';
  }

  /** A short name means the same as its `GL_TEXTURE_`-prefixed form, e.g.
      "min_filter" and "GL_TEXTURE_MIN_FILTER". */
  lemma {:induction false} CanonicalPrefix(s: string, names: map<string, int>)
    requires !StartsWithGL(Upper(s))
    ensures Canonical(ParamName(s), names) == Canonical(ParamName("GL_TEXTURE_" + s), names)
  {
    QualifiedPrefix(s);
  }

  // ---------------------------------------------------------------- to the driver

  /** `for param, value in d.items(): glTexParameter(target, param, value)`. */
  function Replay(c: Context, target: Target, pd: ParamDict): (r: Context)
    ensures r == c.(objectParams := r.objectParams, trace := r.trace)
    ensures c.trace <= r.trace && |Since(c, r)| == |pd|
    ensures forall i :: 0 <= i < |pd| ==> Since(c, r)[i] == TexParameter(target, pd[i].0, pd[i].1)
    decreases |pd|
  {
    if |pd| == 0 then c
    else
      var c1 := GlTexParameter(c, target, pd[0].0, pd[0].1);
      var r := Replay(c1, target, pd[1..]);
      SinceAppend(c, c1, r);
      r
  }

  /** After a replay the bound texture holds every entry of the dict, and
      nothing else changed. */
  lemma {:induction false} ReplayApplies(c: Context, target: Target, pd: ParamDict)
    ensures UniqueKeys(pd) ==>
              forall p :: Lookup(pd, p).Some? ==> ParamOf(Replay(c, target, pd), Binding(c, target), p) == Lookup(pd, p)
    ensures forall h, p :: h != Binding(c, target) || Lookup(pd, p).None? ==>
              ParamOf(Replay(c, target, pd), h, p) == ParamOf(c, h, p)
    decreases |pd|
  {
    if |pd| > 0 {
      var c1 := GlTexParameter(c, target, pd[0].0, pd[0].1);
      assert Replay(c, target, pd) == Replay(c1, target, pd[1..]);
      assert Binding(c1, target) == Binding(c, target);
      assert forall h, p :: ParamOf(c1, h, p) == if h == Binding(c, target) && p == pd[0].0 then Some(pd[0].1) else ParamOf(c, h, p);
      ReplayApplies(c1, target, pd[1..]);
      LookupTail(pd);
    }
  }

  /** `while d: param, value = d.popitem(); glTexParameter(target, param, value)`. */
  function Drain(c: Context, target: Target, pd: ParamDict): (r: Context)
    ensures r == c.(objectParams := r.objectParams, trace := r.trace)
    ensures c.trace <= r.trace && |Since(c, r)| == |pd|
    decreases |pd|
  {
    if |pd| == 0 then c
    else
      var last := pd[|pd| - 1];
      var c1 := GlTexParameter(c, target, last.0, last.1);
      Drain(c1, target, pd[..|pd| - 1])
  }

  /** The entries go to the driver last-inserted first: entry `i` is the
      `i`-th call from the end. */
  lemma {:induction false} DrainOrder(c: Context, target: Target, pd: ParamDict)
    ensures forall i :: 0 <= i < |pd| ==> Since(c, Drain(c, target, pd))[|pd| - 1 - i] == TexParameter(target, pd[i].0, pd[i].1)
    decreases |pd|
  {
    if |pd| > 0 {
      var last := pd[|pd| - 1];
      var rest := pd[..|pd| - 1];
      var c1 := GlTexParameter(c, target, last.0, last.1);
      var r := Drain(c1, target, rest);
      assert Drain(c, target, pd) == r;
      DrainOrder(c1, target, rest);
      SinceAppend(c, c1, r);
      assert Since(c, r) == [TexParameter(target, last.0, last.1)] + Since(c1, r);
      assert forall i :: 0 <= i < |rest| ==> Since(c, r)[|pd| - 1 - i] == Since(c1, r)[|rest| - 1 - i] && rest[i] == pd[i];
    }
  }

  /** A drain sends parameter calls on `target` and nothing else. */
  lemma DrainSendsParams(c: Context, target: Target, pd: ParamDict)
    ensures forall e :: e in Since(c, Drain(c, target, pd)) ==> e.TexParameter? && e.target == target
  {
    var s := Since(c, Drain(c, target, pd));
    DrainOrder(c, target, pd);
    forall e | e in s ensures e.TexParameter? && e.target == target {
      var k :| 0 <= k < |s| && s[k] == e;
      var i := |pd| - 1 - k;
      assert s[|pd| - 1 - i] == TexParameter(target, pd[i].0, pd[i].1);
    }
  }

  /** After a drain the bound texture holds every entry of the dict, and
      nothing else changed. */
  lemma {:induction false} DrainApplies(c: Context, target: Target, pd: ParamDict)
    ensures UniqueKeys(pd) ==>
              forall p :: Lookup(pd, p).Some? ==> ParamOf(Drain(c, target, pd), Binding(c, target), p) == Lookup(pd, p)
    ensures forall h, p :: h != Binding(c, target) || Lookup(pd, p).None? ==>
              ParamOf(Drain(c, target, pd), h, p) == ParamOf(c, h, p)
    decreases |pd|
  {
    if |pd| > 0 {
      var last := pd[|pd| - 1];
      var c1 := GlTexParameter(c, target, last.0, last.1);
      DrainApplies(c1, target, pd[..|pd| - 1]);
      LookupPrefix(pd);
    }
  }
}

=== FILE: raw_texture.dfy ===
/** `_RawTexture` and the parts of `GLObject` it inherits: a GL texture
    handle with its target and texture unit, and the primitive calls that
    create, bind, unbind, fill and delete it. */
module RawTexture {
  import opened Results
  import opened Gl
  import opened Formats
  import opened EnableQueue

  /** `_target`, `_handle` (0 uninitialised, negative errored) and `_unit` (-1 none). */
  datatype Raw = Raw(target: Target, handle: int, unit: int)

  /** `_RawTexture.__init__`: only 2D and 3D targets are accepted. */
  function NewRaw(target: Target): (r: Result<Raw>)
    ensures r.Ok? <==> target.Supported()
    ensures r.Ok? ==> r.value.target == target && r.value.handle == 0 && r.value.unit < 0
    ensures r.Err? ==> r.error == UnsupportedTarget
  {
    if target.Supported() then Ok(Raw(target, 0, -1)) else Err(UnsupportedTarget)
  }

  /** `s[:n]`. */
  function Take<T>(s: seq<T>, n: nat): (r: seq<T>)
    ensures |r| == if |s| <= n then |s| else n
    ensures r <= s
  {
    if |s| <= n then s else s[..n]
  }

  /** `list(reversed(s))`. */
  function Reversed<T>(s: seq<T>): (r: seq<T>)
    ensures |r| == |s|
    ensures forall i :: 0 <= i < |s| ==> r[i] == s[|s| - 1 - i]
  {
    if |s| == 0 then [] else Reversed(s[1..]) + [s[0]]
  }

  /** `size` is the first `n` dimensions of `shape` in driver order
      (fastest-varying first). */
  ghost predicate DriverSize(size: seq<int>, shape: seq<int>, n: nat) {
    && |size| == |Take(shape, n)|
    && forall i :: 0 <= i < |size| ==> size[i] == shape[|size| - 1 - i]
  }

  /** `[i for i in reversed(shape[:ndim])]`. */
  function DriverOrder(shape: seq<int>, n: nat): (size: seq<int>)
    ensures DriverSize(size, shape, n)
  {
    Reversed(Take(shape, n))
  }

  /** `_create`. */
  function Create(r: Raw, c: Context): (res: (Raw, Context))
    ensures res.0 == r.(handle := res.0.handle)
    ensures c.Valid() ==> res.1.Valid()
    ensures c.current && c.Valid() ==> res.0.handle > 0 && res.0.handle !in c.live && GlIsTexture(res.1, res.0.handle)
    ensures !c.current ==> res.0.handle == 0 && res.1.live == c.live
    ensures Since(c, res.1) == [Gen(res.0.handle)] && c.trace <= res.1.trace
    ensures res.1.bound == c.bound && res.1.objectParams == c.objectParams && res.1.current == c.current
    ensures res.1.enableQueue == c.enableQueue && res.1.enabled == c.enabled
    ensures res.1.activeUnit == c.activeUnit && res.1.unpackAlignment == c.unpackAlignment
  {
    var (c1, h) := GlGenTexture(c);
    (r.(handle := h), c1)
  }

  /** `GLObject.delete`: release the handle if there is one, swallow a
      failing deletion, and always end with handle 0. */
  function Delete(r: Raw, c: Context): (res: (Raw, Context))
    ensures res.0 == r.(handle := 0)
    ensures r.handle <= 0 || !c.current ==> res.1 == c
    ensures r.handle > 0 && c.current ==>
              && !GlIsTexture(res.1, r.handle)
              && res.1.live == c.live - {r.handle}
              && Since(c, res.1) == [Event.Delete(r.handle)]
    ensures c.trace <= res.1.trace && res.1.current == c.current
    ensures res.1.objectParams == c.objectParams && res.1.enableQueue == c.enableQueue && res.1.enabled == c.enabled
    ensures res.1.activeUnit == c.activeUnit && res.1.unpackAlignment == c.unpackAlignment
    ensures c.Valid() ==> res.1.Valid()
  {
    var c1 := if r.handle > 0 then GlDeleteTexture(c, r.handle).0 else c;
    (r.(handle := 0), c1)
  }

  /** Deleting twice is the same as deleting once. */
  lemma DeleteIdempotent(r: Raw, c: Context)
    ensures Delete(Delete(r, c).0, Delete(r, c).1) == Delete(r, c)
  {
  }

  /** `_RawTexture._enable`: push the target's enable, select the unit if
      one was given, bind. */
  function RawEnable(r: Raw, c: Context): (res: Context)
    ensures Binding(res, r.target) == r.handle
    ensures Count(res, r.target) == Count(c, r.target) + 1
    ensures res.activeUnit == if r.unit >= 0 then r.unit else c.activeUnit
    ensures res.trace == c.trace + (if Count(c, r.target) == 0 then [Enabled(r.target)] else [])
                                 + (if r.unit >= 0 then [ActiveTexture(r.unit)] else [])
                                 + [Bind(r.target, r.handle)]
    ensures res == c.(bound := res.bound, activeUnit := res.activeUnit, enabled := res.enabled,
                      enableQueue := res.enableQueue, trace := res.trace)
  {
    var c1 := PushEnable(c, r.target);
    var c2 := if r.unit >= 0 then GlActiveTexture(c1, r.unit) else c1;
    GlBindTexture(c2, r.target, r.handle)
  }

  /** Enabling leaves every other target's binding and count alone, and
      keeps the enable counter and the driver in agreement. */
  lemma RawEnableKeepsConsistent(r: Raw, c: Context)
    requires Consistent(c)
    ensures Consistent(RawEnable(r, c)) && r.target in RawEnable(r, c).enabled
    ensures forall t :: t != r.target ==> Binding(RawEnable(r, c), t) == Binding(c, t)
    ensures forall t :: t != r.target ==> Count(RawEnable(r, c), t) == Count(c, t)
  {
    PushKeepsConsistent(c, r.target);
  }

  /** `_RawTexture._disable`: select the remembered unit and forget it,
      unbind, go back to unit 0, pop the target's enable. */
  function RawDisable(r: Raw, c: Context): (res: (Raw, Context))
    ensures res.0.target == r.target && res.0.handle == r.handle && res.0.unit < 0
    ensures r.unit < 0 ==> res.0 == r
    ensures Binding(res.1, r.target) == 0 && res.1.activeUnit == 0
    ensures Count(res.1, r.target) == if Count(c, r.target) == 0 then 0 else Count(c, r.target) - 1
    ensures res.1.trace == c.trace + (if r.unit >= 0 then [ActiveTexture(r.unit)] else [])
                                   + [Bind(r.target, 0), ActiveTexture(0)]
                                   + (if Count(c, r.target) == 1 then [Disabled(r.target)] else [])
    ensures res.1 == c.(bound := res.1.bound, activeUnit := 0, enabled := res.1.enabled,
                        enableQueue := res.1.enableQueue, trace := res.1.trace)
  {
    var c1 := if r.unit >= 0 then GlActiveTexture(c, r.unit) else c;
    var r1 := if r.unit >= 0 then r.(unit := -1) else r;
    var c2 := GlBindTexture(c1, r.target, 0);
    var c3 := GlActiveTexture(c2, 0);
    (r1, PopEnable(c3, r.target))
  }

  /** Disabling leaves every other target's binding and count alone, and
      keeps the enable counter and the driver in agreement. */
  lemma RawDisableKeepsConsistent(r: Raw, c: Context)
    ensures Consistent(c) ==> Consistent(RawDisable(r, c).1)
    ensures forall t :: t != r.target ==> Binding(RawDisable(r, c).1, t) == Binding(c, t)
    ensures forall t :: t != r.target ==> Count(RawDisable(r, c).1, t) == Count(c, t)
  {
    var c1 := if r.unit >= 0 then GlActiveTexture(c, r.unit) else c;
    var c3 := GlActiveTexture(GlBindTexture(c1, r.target, 0), 0);
    assert c3 == c.(bound := c3.bound, activeUnit := 0, trace := c3.trace);
    assert RawDisable(r, c).1 == PopEnable(c3, r.target);
    PopKeepsConsistent(c3, r.target);
    assert forall t :: Count(c3, t) == Count(c, t);
    assert forall t :: t != r.target ==> Binding(c3, t) == Binding(c, t);
  }

  /** `_get_size_and_type`: the driver-order size and the GL element type. */
  function SizeAndType(data: Array, ndim: nat): (res: Result<(seq<int>, GlType)>)
    ensures res.Ok? <==> GlTypeOf(data.dtype).Ok?
    ensures res.Ok? ==> res.value == (DriverOrder(data.shape, ndim), GlTypeOf(data.dtype).value)
    ensures res.Err? ==> res.error == UntranslatableDType
  {
    var gltype :- GlTypeOf(data.dtype);
    Ok((DriverOrder(data.shape, ndim), gltype))
  }

  /** `_allocate`: storage of the given shape, unsigned bytes, no data. */
  function AllocateStorage(r: Raw, c: Context, shape: seq<int>, format: PixelFormat, level: int): (res: Context)
    ensures res == c.(trace := c.trace + [Allocate(r.target, level, format, DriverOrder(shape, r.target.Ndim()))])
  {
    GlTexAllocate(c, r.target, level, format, DriverOrder(shape, r.target.Ndim()))
  }

  /** `_upload`: a full upload of the data, with the unpack alignment set
      for the row width (the last dimension) and put back to 4 afterwards. */
  function UploadData(r: Raw, c: Context, data: Array, format: PixelFormat, level: int): (res: Result<Context>)
    ensures res.Ok? <==> GlTypeOf(data.dtype).Ok? && |data.shape| > 0
    ensures res.Err? ==> res.error == (if GlTypeOf(data.dtype).Err? then UntranslatableDType else EmptyShape)
    ensures res.Ok? ==>
              var a := Alignment(data.shape[|data.shape| - 1]);
              var size := DriverOrder(data.shape, r.target.Ndim());
              var upload := Upload(r.target, level, format, size, GlTypeOf(data.dtype).value,
                                   if a != 4 then a else c.unpackAlignment);
              && res.value.trace == c.trace + (if a != 4 then [PixelStore(a), upload, PixelStore(4)] else [upload])
              && res.value == c.(trace := res.value.trace, unpackAlignment := if a != 4 then 4 else c.unpackAlignment)
  {
    var _ :- GlTypeOf(data.dtype);
    // the DTYPES check inside _get_size_and_type repeats the one above and cannot fail
    var st := SizeAndType(data, r.target.Ndim()).value;
    if |data.shape| == 0 then Err(EmptyShape)
    else
      var a := Alignment(data.shape[|data.shape| - 1]);
      var c1 := if a != 4 then GlPixelStore(c, a) else c;
      var c2 := GlTexImage(c1, r.target, level, format, st.0, st.1);
      Ok(if a != 4 then GlPixelStore(c2, 4) else c2)
  }

  /** With the driver at its default alignment, the rows are always read
      with an alignment that divides the row width, the upload carries the
      data's own size in driver order, and the default is restored. */
  lemma UploadAligned(r: Raw, c: Context, data: Array, format: PixelFormat, level: int)
    requires c.unpackAlignment == 4
    requires UploadData(r, c, data, format, level).Ok?
    ensures var res := UploadData(r, c, data, format, level).value;
            && res.unpackAlignment == 4
            && exists k :: 0 <= k < |Since(c, res)| &&
                 var e := Since(c, res)[k];
                 && e.Upload? && e.target == r.target && e.level == level && e.format == format
                 && DriverSize(e.size, data.shape, r.target.Ndim())
                 && data.shape[|data.shape| - 1] % e.alignment == 0
  {
    var res := UploadData(r, c, data, format, level).value;
    var a := Alignment(data.shape[|data.shape| - 1]);
    var k := if a != 4 then 1 else 0;
    assert Since(c, res)[k].Upload?;
  }

  /** `_update`: a sub-image write at `offset`; the offset must have one
      entry per dimension. */
  function UpdateData(r: Raw, c: Context, data: Array, offset: seq<int>, format: PixelFormat, level: int): (res: Result<Context>)
    ensures res.Ok? <==> GlTypeOf(data.dtype).Ok? && |offset| == |Take(data.shape, r.target.Ndim())|
    ensures res.Err? ==> res.error == (if GlTypeOf(data.dtype).Err? then UntranslatableDType else OffsetSizeMismatch)
    ensures res.Ok? ==>
              res.value == c.(trace := c.trace + [Update(r.target, level, offset, DriverOrder(data.shape, r.target.Ndim()),
                                                         format, GlTypeOf(data.dtype).value)])
  {
    var st :- SizeAndType(data, r.target.Ndim());
    if |offset| != |st.0| then Err(OffsetSizeMismatch)
    else Ok(GlTexSubImage(c, r.target, level, offset, st.0, format, st.1))
  }
}

=== FILE: results.dfy ===
/** Failure-carrying datatypes shared by the texture model.

    Python raises exceptions; the model returns them. A `Result` is used
    where the raising call leaves no state behind (constructors, pure
    utilities); an `Outcome` is used where the object has already been
    mutated when the exception escapes, so the state after the call is
    part of the answer in both cases.
 */
module Results {

  datatype Option<+T> = None | Some(value: T)

  /** The exceptions the texture code can raise, one per raising site. */
  datatype Error =
    | UnsupportedTarget        // ValueError in _RawTexture.__init__
    | InvalidInitValue         // ValueError in Texture.__init__
    | BadRank                  // assert len(shape) in (ndim, ndim+1)
    | BadOffset                // assert len(offset) == ndim
    | BadLevel                 // assert level >= 0
    | BadFormat                // assert format in (None, GL_RGB, ...)
    | BadStorageShape          // assert all(i > 0 for i in shape)
    | InvalidShapeForFormat    // ValueError in get_format (shape)
    | UnknownTargetForFormat   // ValueError in get_format (target)
    | UnknownDType             // RuntimeError in convert_data (first chain)
    | ZeroClimSpan             // ZeroDivisionError: 1.0 / (clim[1] - clim[0]) with equal limits
    | ConversionFailed         // RuntimeError in convert_data (final chain)
    | UntranslatableDType      // ValueError in _get_size_and_type / _upload
    | NoTextureToUpdate        // ValueError in _process_pending_data
    | OffsetSizeMismatch       // assert len(offset) == len(size) in _update
    | InvalidHandle            // RuntimeError in Texture._enable
    | UnknownParameter         // AttributeError from getattr(gl, name)
    | MissingShape             // TypeError: no recorded shape to allocate from
    | EmptyShape               // IndexError: data.shape[-1] of a 0-d array

  datatype Result<+T> = Ok(value: T) | Err(error: Error) {
    predicate IsFailure() {
      Err?
    }

    function PropagateFailure<U>(): Result<U>
      requires Err?
    {
      Err(error)
    }

    function Extract(): T
      requires Ok?
    {
      value
    }
  }

  /** The state of an object after a call, and whether the call raised. */
  datatype Outcome<+S> = Returned(state: S) | Raised(state: S, error: Error)
}

=== FILE: scenarios.dfy ===
/** Concrete runs of the texture model: the calls a few typical uses make. */
module Scenarios {
  import opened Results
  import opened Gl
  import opened Formats
  import opened Params
  import opened EnableQueue
  import opened RawTexture
  import opened Texture
  import opened TextureProps

  const AllCaps := Caps(true, true, true)

  const MinLinear: (int, int) := (TEXTURE_MIN_FILTER, LINEAR)
  const MagLinear: (int, int) := (TEXTURE_MAG_FILTER, LINEAR)

  /** The defaults, in insertion order: minification filter first. */
  lemma DefaultParamsInOrder()
    ensures DefaultParams() == [MinLinear, MagLinear]
  {
    assert Put([], TEXTURE_MIN_FILTER, LINEAR) == [MinLinear];
    assert IndexOf([MinLinear], TEXTURE_MAG_FILTER) == 1;
  }

  /** The state of a fresh context after texture 1 was generated and bound. */
  function Generated(target: Target): Context {
    Context(true, {1}, 2, 0, map[target := 1], 4, map[], {}, map[], [Gen(1), Bind(target, 1)])
  }

  /** The first re-upload in a fresh context generates name 1 and binds it. */
  lemma FirstRecreate(target: Target)
    ensures Recreate(Raw(target, 0, -1), Fresh(true)) == (Raw(target, 1, -1), Generated(target))
  {
    var r0 := Raw(target, 0, -1);
    assert RawTexture.Delete(r0, Fresh(true)) == (r0, Fresh(true));
    var g := GlGenTexture(Fresh(true));
    assert g.1 == 1;
    assert g.0.live == {1};
    assert g.0 == Context(true, {1}, 2, 0, map[], 4, map[], {}, map[], [Gen(1)]);
    assert Create(r0, Fresh(true)) == (Raw(target, 1, -1), g.0);
    assert map[][target := 1] == map[target := 1];
    assert GlBindTexture(g.0, target, 1) == Generated(target);
  }

  /** Replaying the defaults onto texture 1. */
  lemma ReplayDefaults(c: Context, target: Target)
    requires Binding(c, target) == 1
    ensures Replay(c, target, [MinLinear, MagLinear]) ==
              c.(objectParams := c.objectParams[(1, TEXTURE_MIN_FILTER) := LINEAR][(1, TEXTURE_MAG_FILTER) := LINEAR],
                 trace := c.trace + [TexParameter(target, TEXTURE_MIN_FILTER, LINEAR), TexParameter(target, TEXTURE_MAG_FILTER, LINEAR)])
  {
    var c1 := GlTexParameter(c, target, TEXTURE_MIN_FILTER, LINEAR);
    var c2 := GlTexParameter(c1, target, TEXTURE_MAG_FILTER, LINEAR);
    assert Replay(c1, target, [MagLinear]) == Replay(c2, target, []);
  }

  /** A 4x4 RGB byte image as constructed. */
  function RgbImage(): Tex {
    var data := Array([4, 4, 3], UInt(8));
    Tex(Raw(Texture2D, 0, -1), Some(PendingData(data, None, 0, None, None)), Some([4, 4, 3]),
        [MinLinear, MagLinear], [MinLinear, MagLinear])
  }

  lemma RgbImageConstructed()
    ensures NewTexture(Texture2D, InitData(Array([4, 4, 3], UInt(8))), None, None) == Ok(RgbImage())
  {
    DefaultParamsInOrder();
  }

  /** The calls of the first `with` on the RGB image. */
  const RgbUploadTrace: seq<Event> :=
    [ Gen(1), Bind(Texture2D, 1),
      PixelStore(1), Upload(Texture2D, 0, Rgb, [4, 4], UnsignedByte, 1), PixelStore(4) ]

  /** The two default filters, in insertion order. */
  const DefaultFilterCalls: seq<Event> :=
    [ TexParameter(Texture2D, TEXTURE_MIN_FILTER, LINEAR),
      TexParameter(Texture2D, TEXTURE_MAG_FILTER, LINEAR) ]

  const RgbFirstTrace: seq<Event> := RgbUploadTrace + DefaultFilterCalls

  /** The RGB image needs no conversion and is inferred as RGB, so
      processing it is a re-upload in that format. */
  lemma RgbImageReuploads()
    ensures var t := RgbImage();
            ProcessPending(t.(pending := None), Fresh(true), t.pending.value, AllCaps) ==
              PlaceUpload(t.(pending := None), Fresh(true), t.pending.value, Rgb)
  {
    assert ConvertData(UInt(8), None, AllCaps) == Ok(Converted(UInt(8), None));
    assert ResolveFormat(None, Some([4, 4, 3]), Texture2D) == Ok(Rgb);
  }

  /** Rows of 3 bytes are read with alignment 1, set and then restored. */
  lemma RgbImageUploaded()
    ensures UploadData(Raw(Texture2D, 1, -1), Generated(Texture2D), Array([4, 4, 3], UInt(8)), Rgb, 0) ==
              Ok(Generated(Texture2D).(trace := RgbUploadTrace))
  {
    var c := Generated(Texture2D);
    assert Alignment(3) == 1;
    assert DriverOrder([4, 4, 3], 2) == [4, 4];
    assert GlTypeOf(UInt(8)) == Ok(UnsignedByte);
    assert c.trace + [PixelStore(1), Upload(Texture2D, 0, Rgb, [4, 4], UnsignedByte, 1), PixelStore(4)] == RgbUploadTrace;
  }

  lemma RgbImageStored()
    ensures Store(Raw(Texture2D, 1, -1), Generated(Texture2D), RgbImage().pending.value, Rgb, Some([4, 4, 3])) ==
              Ok(Generated(Texture2D).(trace := RgbUploadTrace))
  {
    RgbImageUploaded();
  }

  /** The re-upload of the RGB image: texture 1, the upload, and the
      parameters replayed. */
  lemma RgbImagePlaced()
    ensures var t := RgbImage();
            PlaceUpload(t.(pending := None), Fresh(true), t.pending.value, Rgb) ==
              Returned(World(t.(pending := None, raw := Raw(Texture2D, 1, -1), pendingParams := []),
                             Replay(Generated(Texture2D).(trace := RgbUploadTrace), Texture2D, t.params)))
  {
    FirstRecreate(Texture2D);
    RgbImageStored();
  }

  /** The context after the RGB image's first processing. */
  function RgbProcessedGl(): Context {
    Replay(Generated(Texture2D).(trace := RgbUploadTrace), Texture2D, [MinLinear, MagLinear])
  }

  /** Processing the RGB image is that re-upload. */
  lemma RgbImageProcessed()
    ensures var t := RgbImage();
            ProcessPending(t.(pending := None), Fresh(true), t.pending.value, AllCaps) ==
              Returned(World(t.(pending := None, raw := Raw(Texture2D, 1, -1), pendingParams := []), RgbProcessedGl()))
  {
    RgbImageReuploads();
    RgbImagePlaced();
  }

  /** Upload with alignment 1 (the last dimension is 3) and back to 4, then
      both default filters; texture 1 is live and bound. */
  lemma RgbProcessedCalls()
    ensures RgbProcessedGl().trace == RgbFirstTrace
    ensures RgbProcessedGl().live == {1} && Binding(RgbProcessedGl(), Texture2D) == 1
    ensures Count(RgbProcessedGl(), Texture2D) == 0
  {
    var c2 := Generated(Texture2D).(trace := RgbUploadTrace);
    ReplayDefaults(c2, Texture2D);
    assert [TexParameter(Texture2D, TEXTURE_MIN_FILTER, LINEAR), TexParameter(Texture2D, TEXTURE_MAG_FILTER, LINEAR)] == DefaultFilterCalls;
  }

  /** The RGB image after its first processing: texture 1, nothing pending. */
  function RgbResident(): Tex {
    RgbImage().(pending := None, raw := Raw(Texture2D, 1, -1), pendingParams := [])
  }

  /** Activating a resident texture with no pending parameters on a target
      nobody else has enabled: glEnable, then bind. */
  lemma ActivateResident(w: World)
    requires w.tex.raw.handle > 0 && GlIsTexture(w.gl, w.tex.raw.handle) && w.tex.raw.unit < 0
    requires w.tex.pendingParams == [] && Count(w.gl, w.tex.raw.target) == 0
    ensures FinishEnable(Returned(w)) == Activate(w)
    ensures Activate(w).Returned? && Activate(w).state.tex == w.tex
    ensures Activate(w).state.gl.trace == w.gl.trace + [Enabled(w.tex.raw.target), Bind(w.tex.raw.target, w.tex.raw.handle)]
    ensures Activate(w).state.gl.live == w.gl.live && Count(Activate(w).state.gl, w.tex.raw.target) == 1
  {
    var c1 := RawEnable(w.tex.raw, w.gl);
    assert Drain(c1, w.tex.raw.target, []) == c1;
  }

  /** The first `with texture:` on the RGB image: name 1 is generated,
      filled and given the default filters, then enabled and bound. */
  lemma RgbImageFirstUse()
    ensures var r := Enable(RgbImage(), Fresh(true), AllCaps);
            && r.Returned? && r.state.tex == RgbResident()
            && r.state.gl.trace == RgbFirstTrace + [Enabled(Texture2D), Bind(Texture2D, 1)]
            && r.state.gl.live == {1} && Count(r.state.gl, Texture2D) == 1
  {
    var t := RgbImage();
    RgbImageProcessed();
    RgbProcessedCalls();
    var w := World(RgbResident(), RgbProcessedGl());
    ActivateResident(w);
    EnableWithPending(t, Fresh(true), AllCaps);
  }

  /** The same data again, after the first `with` block has ended, is
      recorded as a write at offset (0, 0). */
  lemma RgbImageSetAgain()
    ensures SetData(RgbResident(), Array([4, 4, 3], UInt(8)), None, 0, None, None) ==
              Returned(RgbResident().(pending := Some(PendingData(Array([4, 4, 3], UInt(8)), Some([0, 0]), 0, None, None))))
  {
    SetDataSameShape(RgbResident(), Array([4, 4, 3], UInt(8)), 0, None, None);
    assert Zeros(2) == [0, 0];
  }

  /** Processing that write binds texture 1 and writes the 4x4 sub-image. */
  lemma RgbImageUpdateProcessed(c: Context)
    requires GlIsTexture(c, 1)
    ensures var p := PendingData(Array([4, 4, 3], UInt(8)), Some([0, 0]), 0, None, None);
            var r := ProcessPending(RgbResident(), c, p, AllCaps);
            && r.Returned? && r.state.tex == RgbResident()
            && r.state.gl == c.(bound := c.bound[Texture2D := 1],
                                trace := c.trace + [Bind(Texture2D, 1), Update(Texture2D, 0, [0, 0], [4, 4], Rgb, UnsignedByte)])
  {
    assert ConvertData(UInt(8), None, AllCaps) == Ok(Converted(UInt(8), None));
    assert ResolveFormat(None, Some([4, 4, 3]), Texture2D) == Ok(Rgb);
    assert DriverOrder([4, 4, 3], 2) == [4, 4];
  }

  /** Enabling the RGB image with that write pending, on a context where
      texture 1 exists and nobody has the target enabled. */
  lemma RgbImageUpdateEnable(c: Context)
    requires GlIsTexture(c, 1) && Count(c, Texture2D) == 0
    ensures var p := PendingData(Array([4, 4, 3], UInt(8)), Some([0, 0]), 0, None, None);
            var r := Enable(RgbResident().(pending := Some(p)), c, AllCaps);
            && r.Returned? && r.state.tex == RgbResident()
            && r.state.gl.trace == c.trace + [ Bind(Texture2D, 1), Update(Texture2D, 0, [0, 0], [4, 4], Rgb, UnsignedByte),
                                               Enabled(Texture2D), Bind(Texture2D, 1) ]
  {
    var p := PendingData(Array([4, 4, 3], UInt(8)), Some([0, 0]), 0, None, None);
    RgbImageUpdateProcessed(c);
    var w := ProcessPending(RgbResident(), c, p, AllCaps).state;
    EnableWithPending(RgbResident().(pending := Some(p)), c, AllCaps);
    ActivateResident(w);
  }

  /** Leaving the first `with` block: texture 1 stays resident. */
  lemma RgbImageFirstExit()
    ensures var w1 := Enable(RgbImage(), Fresh(true), AllCaps).state;
            var w2 := Disable(w1.tex, w1.gl);
            && w2.tex == RgbResident() && Count(w2.gl, Texture2D) == 0 && GlIsTexture(w2.gl, 1)
  {
    RgbImageFirstUse();
  }

  /** Setting data of the same shape again, after the first use has ended,
      writes into texture 1 at offset (0, 0) instead of re-creating it. */
  lemma RgbImageUpdate()
    ensures var w1 := Enable(RgbImage(), Fresh(true), AllCaps).state;
            var w2 := Disable(w1.tex, w1.gl);
            var t3 := SetData(w2.tex, Array([4, 4, 3], UInt(8)), None, 0, None, None).state;
            var r := Enable(t3, w2.gl, AllCaps);
            && r.Returned? && r.state.tex.raw.handle == 1
            && Since(w2.gl, r.state.gl) ==
                 [ Bind(Texture2D, 1), Update(Texture2D, 0, [0, 0], [4, 4], Rgb, UnsignedByte),
                   Enabled(Texture2D), Bind(Texture2D, 1) ]
  {
    RgbImageFirstExit();
    var w1 := Enable(RgbImage(), Fresh(true), AllCaps).state;
    var w2 := Disable(w1.tex, w1.gl);
    RgbImageSetAgain();
    RgbImageUpdateEnable(w2.gl);
  }

  /** Storage for a 256x256 render target as constructed. */
  function Storage256(): Tex {
    Tex(Raw(Texture2D, 0, -1), Some(PendingStorage(0, None)), Some([256, 256]),
        [MinLinear, MagLinear], [MinLinear, MagLinear])
  }

  lemma StorageConstructed()
    ensures NewTexture(Texture2D, InitStorage([256, 256]), None, None) == Ok(Storage256())
  {
    DefaultParamsInOrder();
  }

  /** The calls that process the render target's pending storage. */
  const StorageAllocTrace: seq<Event> :=
    [ Gen(1), Bind(Texture2D, 1), Allocate(Texture2D, 0, Luminance, [256, 256]) ]

  const StorageTrace: seq<Event> := StorageAllocTrace + DefaultFilterCalls

  /** The storage is allocated as luminance, with no pixel-store calls. */
  lemma StorageStored()
    ensures Store(Raw(Texture2D, 1, -1), Generated(Texture2D), PendingStorage(0, None), Luminance, Some([256, 256])) ==
              Ok(Generated(Texture2D).(trace := StorageAllocTrace))
  {
    var c := Generated(Texture2D);
    assert DriverOrder([256, 256], 2) == [256, 256];
    assert AllocateStorage(Raw(Texture2D, 1, -1), c, [256, 256], Luminance, 0) == c.(trace := StorageAllocTrace);
  }

  lemma StorageProcessed()
    ensures var r := ProcessPending(Storage256().(pending := None), Fresh(true), PendingStorage(0, None), AllCaps);
            && r.Returned? && r.state.tex == Storage256().(pending := None, raw := Raw(Texture2D, 1, -1), pendingParams := [])
            && r.state.gl.trace == StorageTrace
            && r.state.gl.live == {1} && Count(r.state.gl, Texture2D) == 0
  {
    var tp := Storage256().(pending := None);
    assert ResolveFormat(None, Some([256, 256]), Texture2D) == Ok(Luminance);
    assert ProcessPending(tp, Fresh(true), PendingStorage(0, None), AllCaps) == PlaceUpload(tp, Fresh(true), PendingStorage(0, None), Luminance);
    FirstRecreate(Texture2D);
    StorageStored();
    ReplayDefaults(Generated(Texture2D).(trace := StorageAllocTrace), Texture2D);
  }

  /** The first `with` on the render target: storage, both filters, then
      glEnable and bind. */
  lemma StorageFirstUse()
    ensures var r := Enable(Storage256(), Fresh(true), AllCaps);
            && r.Returned? && r.state.tex.raw.handle == 1
            && r.state.gl.trace == StorageTrace + [Enabled(Texture2D), Bind(Texture2D, 1)]
            && Count(r.state.gl, Texture2D) == 1
  {
    StorageProcessed();
    var w := ProcessPending(Storage256().(pending := None), Fresh(true), PendingStorage(0, None), AllCaps).state;
    ActivateResident(w);
    EnableWithPending(Storage256(), Fresh(true), AllCaps);
  }

  /** Without a current context no name can be generated: the texture
      becomes errored and later enables do nothing. */
  lemma NoContextErrors()
    ensures var t := NewTexture(Texture2D, InitStorage([8, 8]), None, None).value;
            var r := Enable(t, Fresh(false), AllCaps);
            && r.Returned? && r.state.tex.raw.handle == -1
            && Enable(r.state.tex, r.state.gl, AllCaps) == Returned(r.state)
  {
  }

  /** A 3D texture without the extension becomes errored without touching
      the driver, and keeps its pending data. */
  lemma NoTexture3DExtension()
    ensures var t := NewTexture(Texture3D, InitStorage([4, 4, 4]), None, None).value;
            var r := Enable(t, Fresh(true), Caps(false, true, true));
            && r == Returned(World(t.(raw := t.raw.(handle := -1)), Fresh(true)))
            && r.state.tex.pending.Some?
  {
  }

  /** Derived contrast limits: signed types get their full range, unsigned
      ones half their range; with no float textures everything ends up as
      unsigned bytes. */
  lemma ConversionExamples()
    ensures ConvertData(Int(8), None, AllCaps) == Ok(Converted(Float(32), Some(Clim(-128, 127))))
    ensures ConvertData(UInt(16), None, AllCaps) == Ok(Converted(Float(32), Some(Clim(0, 32768))))
    ensures ConvertData(Int(16), None, Caps(true, false, false)) == Ok(Converted(UInt(8), Some(Clim(-32768, 32767))))
    ensures ConvertData(Float(64), Some(Clim(0, 10)), AllCaps) == Ok(Converted(Float(32), Some(Clim(0, 10))))
    ensures ConvertData(Bool, Some(Clim(0, 10)), AllCaps) == Ok(Converted(UInt(8), None))
    ensures ConvertData(Unknown("complex64"), None, AllCaps) == Err(UnknownDType)
    ensures ConvertData(UInt(8), Some(Clim(3, 3)), AllCaps) == Err(ZeroClimSpan)
  {
    assert Pow2(8) == 256;
    assert Pow2(16) == 65536;
  }

  /** Equal contrast limits: entering raises, and the pending data is gone. */
  lemma EqualLimitsRaise()
    ensures var t := NewTexture(Texture2D, InitData(Array([4, 4], UInt(8))), None, Some(Clim(3, 3))).value;
            Enable(t, Fresh(true), AllCaps) == Raised(World(t.(pending := None), Fresh(true)), ZeroClimSpan)
  {
  }

  /** Format inference and unpack alignment on sample shapes. */
  lemma FormatExamples()
    ensures GetFormat([10, 10], Texture2D) == Ok(Luminance)
    ensures GetFormat([10, 10, 4], Texture2D) == Ok(Rgba)
    ensures GetFormat([10, 10, 5], Texture2D) == Err(InvalidShapeForFormat)
    ensures GetFormat([10, 10, 10, 2], Texture3D) == Ok(LuminanceAlpha)
    ensures GetFormat([10, 10], TextureCubeMap) == Err(UnknownTargetForFormat)
    ensures Alignment(640) == 4 && Alignment(6) == 2 && Alignment(7) == 1
  {
  }

  /** `"min_filter".upper()`. */
  lemma UpperExample()
    ensures Upper("min_filter") == "MIN_FILTER"
  {
    var s := "min_filter";
    assert forall i :: 0 <= i < |s| ==> UpperChar(s[i]) == "MIN_FILTER"[i];
  }

  /** A step of `QualifiedNameExample`: the two literals concatenated. It
      is stated on its own because the solver finds it costly inside that
      lemma. */
  lemma PrefixedNameLiteral()
    ensures "GL_TEXTURE_" + "MIN_FILTER" == "GL_TEXTURE_MIN_FILTER"
  {
  }

  /** A short name gets the `GL_TEXTURE_` prefix. */
  lemma QualifiedNameExample()
    ensures QualifiedName("min_filter") == "GL_TEXTURE_MIN_FILTER"
  {
    UpperExample();
    assert !StartsWithGL("MIN_FILTER");
    PrefixedNameLiteral();
  }

  /** Short parameter names are qualified, upper-cased and looked up. */
  lemma ParameterNameExample()
    ensures Canonical(ParamName("min_filter"), map["GL_TEXTURE_MIN_FILTER" := TEXTURE_MIN_FILTER]) == Ok(TEXTURE_MIN_FILTER)
    ensures Canonical(ParamName("min_filter"), map[]) == Err(UnknownParameter)
  {
    QualifiedNameExample();
  }

  /** A texture constructed without data. */
  function EmptyTexture(): Tex {
    Tex(Raw(Texture2D, 0, -1), None, None, [MinLinear, MagLinear], [MinLinear, MagLinear])
  }

  lemma EmptyConstructed()
    ensures NewTexture(Texture2D, NoInit, None, None) == Ok(EmptyTexture())
  {
    DefaultParamsInOrder();
  }

  /** Entering a `with` block on the empty texture does nothing; leaving it
      still pops the target's enable, which disables the target when the
      count was 1. */
  lemma EmptyTextureEnterExit(c: Context)
    requires Count(c, Texture2D) == 1
    ensures Enable(EmptyTexture(), c, AllCaps) == Returned(World(EmptyTexture(), c))
    ensures var e := Disable(EmptyTexture(), c);
            && Count(e.gl, Texture2D) == 0 && Texture2D !in e.gl.enabled
            && e.gl.trace == c.trace + [Bind(Texture2D, 0), ActiveTexture(0), Disabled(Texture2D)]
  {
    var c2 := GlBindTexture(c, Texture2D, 0);
    var c3 := GlActiveTexture(c2, 0);
    assert Count(c3, Texture2D) == 1;
    assert Disable(EmptyTexture(), c).gl == PopEnable(c3, Texture2D);
  }

  /** While one texture is inside `with`, a `with` block on a second texture
      that has no data yet disables the shared target on exit, under the
      first texture. */
  lemma EmptyTextureExitDisablesOther()
    ensures var wa := Enable(Storage256(), Fresh(true), AllCaps).state;
            var b := NewTexture(Texture2D, NoInit, None, None).value;
            var wb := Enable(b, wa.gl, AllCaps).state;
            var eb := Disable(wb.tex, wb.gl);
            && wa.tex.raw.handle == 1 && Count(wa.gl, Texture2D) == 1 && Texture2D in wa.gl.enabled
            && wb.gl == wa.gl
            && Count(eb.gl, Texture2D) == 0 && Texture2D !in eb.gl.enabled
            && Since(wa.gl, eb.gl) == [Bind(Texture2D, 0), ActiveTexture(0), Disabled(Texture2D)]
  {
    StorageFirstUse();
    var wa := Enable(Storage256(), Fresh(true), AllCaps).state;
    assert Texture2D in wa.gl.enabled by {
      EnableCounts(Storage256(), Fresh(true), AllCaps);
      assert Consistent(Fresh(true));
    }
    EmptyConstructed();
    EmptyTextureEnterExit(wa.gl);
  }
}

=== FILE: texture.dfy ===
/** The `Texture` class: a raw texture plus deferred (lazy) loading.

    `set_data`, `set_storage` and `set_parameter` only record what should
    happen; the driver is touched when the texture is enabled, which is
    when pending data is converted, uploaded or written into the existing
    texture, and pending parameters are sent. The object is a `Tex`; the
    driver it is enabled in is a `Gl.Context`. */
module Texture {
  import opened Results
  import opened Gl
  import opened Formats
  import opened Params
  import opened EnableQueue
  import opened RawTexture

  /** `_pending_data`: the arguments of the last `set_data` or `set_storage`
      that has not reached the driver yet. */
  datatype Pending =
    | PendingData(data: Array, offset: Option<seq<int>>, level: int, format: Option<PixelFormat>, clim: Option<Clim>)
    | PendingStorage(level: int, format: Option<PixelFormat>)

  /** A texture object: the raw part, the pending data, the shape of the
      texture as last set (`_texture_shape`), and the two parameter dicts. */
  datatype Tex = Tex(
    raw: Raw,
    pending: Option<Pending>,
    shape: Option<seq<int>>,
    params: ParamDict,
    pendingParams: ParamDict)

  /** A texture together with the context it is used in. */
  datatype World = World(tex: Tex, gl: Context)

  /** The `data` argument of the constructor: nothing, an array, a shape
      tuple, or anything else (which is rejected). */
  datatype Init = NoInit | InitData(data: Array) | InitStorage(shape: seq<int>) | InitOther

  /** The formats `set_data` and `set_storage` accept: none, or one of the five. */
  predicate FormatOk(format: Option<PixelFormat>) {
    format.None? || format.value.Recognised()
  }

  /** The pending request is one `set_data` or `set_storage` could have recorded. */
  predicate WellFormedPending(p: Pending, ndim: nat) {
    match p
    case PendingData(data, offset, level, format, _) =>
      && (|data.shape| == ndim || |data.shape| == ndim + 1)
      && (offset.Some? ==> |offset.value| == ndim)
      && level >= 0 && FormatOk(format)
    case PendingStorage(level, format) =>
      level >= 0 && FormatOk(format)
  }

  /** The object invariant: a supported target, dicts with unique keys, and
      every pending parameter holding the value recorded for it. */
  ghost predicate Valid(t: Tex) {
    && t.raw.target.Supported()
    && UniqueKeys(t.params) && UniqueKeys(t.pendingParams)
    && (forall p :: Lookup(t.pendingParams, p).Some? ==> Lookup(t.pendingParams, p) == Lookup(t.params, p))
    && (t.pending.Some? ==> WellFormedPending(t.pending.value, t.raw.target.Ndim()))
  }

  /** The parameter defaults every texture starts with: linear filtering,
      because the driver's default minification filter needs mipmaps. */
  function DefaultParams(): (pd: ParamDict)
    ensures UniqueKeys(pd)
    ensures Lookup(pd, TEXTURE_MIN_FILTER) == Some(LINEAR) && Lookup(pd, TEXTURE_MAG_FILTER) == Some(LINEAR)
    ensures forall p :: p != TEXTURE_MIN_FILTER && p != TEXTURE_MAG_FILTER ==> Lookup(pd, p).None?
  {
    Put(Put([], TEXTURE_MIN_FILTER, LINEAR), TEXTURE_MAG_FILTER, LINEAR)
  }

  /** `Texture.__init__`: a raw texture with the default parameters pending,
      then `set_data` for an array or `set_storage` for a shape tuple. */
  function NewTexture(target: Target, init: Init, format: Option<PixelFormat>, clim: Option<Clim>): (r: Result<Tex>)
    ensures !target.Supported() ==> r == Err(UnsupportedTarget)
    ensures init.InitOther? && target.Supported() ==> r == Err(InvalidInitValue)
    ensures r.Ok? ==> Valid(r.value) && r.value.raw == Raw(target, 0, -1)
    ensures r.Ok? ==> r.value.params == DefaultParams() && r.value.pendingParams == DefaultParams()
    ensures r.Ok? ==> (r.value.pending.None? <==> init.NoInit?)
    ensures init.NoInit? && target.Supported() ==> r.Ok?
    // an array is accepted iff its rank fits the target and the format is known
    ensures target.Supported() && init.InitData? ==>
              (r.Ok? <==> && (|init.data.shape| == target.Ndim() || |init.data.shape| == target.Ndim() + 1)
                          && FormatOk(format))
    ensures r.Ok? && init.InitData? ==>
              r.value.pending == Some(PendingData(init.data, None, 0, format, clim)) && r.value.shape == Some(init.data.shape)
    // a shape is accepted iff its rank fits, every dimension is positive and the format is known
    ensures target.Supported() && init.InitStorage? ==>
              (r.Ok? <==> && (|init.shape| == target.Ndim() || |init.shape| == target.Ndim() + 1)
                          && (forall i :: 0 <= i < |init.shape| ==> init.shape[i] > 0)
                          && FormatOk(format))
    ensures r.Ok? && init.InitStorage? ==>
              r.value.pending == Some(PendingStorage(0, format)) && r.value.shape == Some(init.shape)
    ensures r.Err? && target.Supported() && !init.InitOther? ==> r.error in {BadRank, BadStorageShape, BadFormat}
  {
    var raw :- NewRaw(target);
    var t := Tex(raw, None, None, DefaultParams(), DefaultParams());
    match init
    case NoInit => Ok(t)
    case InitData(data) =>
      (match SetData(t, data, None, 0, format, clim)
       case Returned(t1) => Ok(t1)
       case Raised(_, e) => Err(e))
    case InitStorage(shape) =>
      (match SetStorage(t, shape, 0, format)
       case Returned(t1) => Ok(t1)
       case Raised(_, e) => Err(e))
    case InitOther => Err(InvalidInitValue)
  }

  /** `__call__(unit)`: remember the texture unit to enable on. */
  function SetUnit(t: Tex, unit: int): (r: Tex)
    ensures r.raw.unit == unit
    ensures r == t.(raw := t.raw.(unit := unit))
    ensures Valid(t) ==> Valid(r)
  {
    t.(raw := t.raw.(unit := unit))
  }

  /** `set_parameter`: record the value in both dicts, under the enum the
      parameter names. An unknown name raises before anything changes. */
  function SetParameter(t: Tex, param: Param, value: int, names: map<string, int>): (r: Result<Tex>)
    ensures r.Ok? <==> Canonical(param, names).Ok?
    ensures r.Err? ==> r.error == UnknownParameter
    ensures r.Ok? ==>
              var p := Canonical(param, names).value;
              && Lookup(r.value.params, p) == Some(value) && Lookup(r.value.pendingParams, p) == Some(value)
              && (forall q :: q != p ==> Lookup(r.value.params, q) == Lookup(t.params, q))
              && (forall q :: q != p ==> Lookup(r.value.pendingParams, q) == Lookup(t.pendingParams, q))
              && r.value == t.(params := r.value.params, pendingParams := r.value.pendingParams)
    ensures r.Ok? && Valid(t) ==> Valid(r.value)
  {
    var p :- Canonical(param, names);
    Ok(t.(params := Put(t.params, p, value), pendingParams := Put(t.pendingParams, p, value)))
  }

  /** The first step of `set_data` and `set_storage`: an errored texture
      (negative handle) is given another chance and forgets its shape. */
  function ClearError(t: Tex): (r: Tex)
    ensures r.raw.handle == if t.raw.handle < 0 then 0 else t.raw.handle
    ensures r.shape == if t.raw.handle < 0 then None else t.shape
    ensures r == t.(raw := r.raw, shape := r.shape) && r.raw == t.raw.(handle := r.raw.handle)
  {
    if t.raw.handle < 0 then t.(raw := t.raw.(handle := 0), shape := None) else t
  }

  /** `[0 for i in shape[:ndim]]`. */
  function Zeros(n: nat): (z: seq<int>)
    ensures |z| == n && forall i :: 0 <= i < n ==> z[i] == 0
  {
    seq(n, _ => 0)
  }

  /** The fast path of `set_data`: no offset was given, the data has the
      texture's current shape, and the texture exists on the driver. */
  predicate SameShapeResident(t: Tex, data: Array, offset: Option<seq<int>>) {
    offset.None? && t.raw.handle > 0 && t.shape == Some(data.shape)
  }

  /** `set_data`: check the arguments and record them as pending data.
      The error reset happens before any check, so it survives a raise. */
  function SetData(t: Tex, data: Array, offset: Option<seq<int>>, level: int,
                   format: Option<PixelFormat>, clim: Option<Clim>): (r: Outcome<Tex>)
    requires t.raw.target.Supported()
    ensures var n := t.raw.target.Ndim();
            r.Returned? <==> && (|data.shape| == n || |data.shape| == n + 1)
                             && (offset.Some? ==> |offset.value| == n)
                             && level >= 0 && FormatOk(format)
    ensures r.Raised? ==> r.state == ClearError(t)
    ensures r.Raised? ==> r.error in {BadRank, BadOffset, BadLevel, BadFormat}
    ensures r.Returned? ==>
              && r.state == ClearError(t).(pending := r.state.pending, shape := Some(data.shape))
              && r.state.pending.Some? && r.state.pending.value.PendingData?
              && var p := r.state.pending.value;
                 && p.data == data && p.level == level && p.format == format && p.clim == clim
                 && (offset.Some? ==> p.offset == offset)
                 && (offset.None? ==>
                       p.offset == if SameShapeResident(t, data, offset) then Some(Zeros(t.raw.target.Ndim())) else None)
    ensures Valid(t) ==> Valid(r.state)
  {
    var t0 := ClearError(t);
    var n := t.raw.target.Ndim();
    if !(|data.shape| == n || |data.shape| == n + 1) then Raised(t0, BadRank)
    else if offset.Some? && |offset.value| != |Take(data.shape, n)| then Raised(t0, BadOffset)
    else
      var off := if offset.Some? then offset
                 else if SameShapeResident(t0, data, offset) then Some(Zeros(|Take(data.shape, n)|))
                 else None;
      if level < 0 then Raised(t0, BadLevel)
      else if !FormatOk(format) then Raised(t0, BadFormat)
      else Returned(t0.(pending := Some(PendingData(data, off, level, format, clim)), shape := Some(data.shape)))
  }

  /** The shortcut of `set_storage`: a call with only a shape that would not
      change the texture's first `ndim` dimensions does nothing. */
  predicate StorageUnchanged(t: Tex, shape: seq<int>, level: int, format: Option<PixelFormat>) {
    && format.None? && level == 0 && t.shape.Some?
    && Take(t.shape.value, t.raw.target.Ndim()) == Take(shape, t.raw.target.Ndim())
  }

  /** `set_storage`: record that storage of the given shape should be
      allocated, unless the shortcut applies. */
  function SetStorage(t: Tex, shape: seq<int>, level: int, format: Option<PixelFormat>): (r: Outcome<Tex>)
    requires t.raw.target.Supported()
    ensures var n := t.raw.target.Ndim();
            r.Returned? <==> || StorageUnchanged(ClearError(t), shape, level, format)
                             || (&& (|shape| == n || |shape| == n + 1)
                                 && (forall i :: 0 <= i < |shape| ==> shape[i] > 0)
                                 && level >= 0 && FormatOk(format))
    ensures r.Raised? ==> r.state == ClearError(t)
    ensures r.Raised? ==> r.error in {BadRank, BadStorageShape, BadLevel, BadFormat}
    ensures StorageUnchanged(ClearError(t), shape, level, format) ==> r == Returned(ClearError(t))
    ensures r.Returned? && !StorageUnchanged(ClearError(t), shape, level, format) ==>
              r.state == ClearError(t).(pending := Some(PendingStorage(level, format)), shape := Some(shape))
    ensures Valid(t) ==> Valid(r.state)
  {
    var t0 := ClearError(t);
    var n := t.raw.target.Ndim();
    if StorageUnchanged(t0, shape, level, format) then Returned(t0)
    else if !(|shape| == n || |shape| == n + 1) then Raised(t0, BadRank)
    else if exists i :: 0 <= i < |shape| && shape[i] <= 0 then Raised(t0, BadStorageShape)
    else if level < 0 then Raised(t0, BadLevel)
    else if !FormatOk(format) then Raised(t0, BadFormat)
    else Returned(t0.(pending := Some(PendingStorage(level, format)), shape := Some(shape)))
  }

  /** The format to use: the given one, or the one inferred from the shape. */
  function ResolveFormat(format: Option<PixelFormat>, shape: Option<seq<int>>, target: Target): (r: Result<PixelFormat>)
    ensures format.Some? ==> r == Ok(format.value)
    ensures format.None? && shape.None? ==> r == Err(MissingShape)
    ensures format.None? && shape.Some? ==> r == GetFormat(shape.value, target)
  {
    if format.Some? then Ok(format.value)
    else if shape.None? then Err(MissingShape)
    else GetFormat(shape.value, target)
  }

  /** Whether pending data is written into the existing texture (a truthy
      offset) rather than re-uploaded. */
  predicate IsUpdate(p: Pending) {
    p.PendingData? && p.offset.Some? && |p.offset.value| > 0
  }

  /** The update branch of `_process_pending_data`: bind, refuse when there
      is no texture to write into, and write the data at its offset. */
  function PlaceUpdate(t: Tex, c: Context, p: Pending, format: PixelFormat): (r: Outcome<World>)
    requires IsUpdate(p)
    ensures r.state.tex == t
    ensures r.state.gl == c.(bound := r.state.gl.bound, trace := r.state.gl.trace)
    ensures Binding(r.state.gl, t.raw.target) == t.raw.handle
    ensures c.trace <= r.state.gl.trace
    ensures r.Returned? <==> t.raw.handle > 0 && GlIsTexture(c, t.raw.handle) && UpdateData(t.raw, c, p.data, p.offset.value, format, p.level).Ok?
    ensures r.Returned? ==>
              r.state.gl.trace == c.trace + [Bind(t.raw.target, t.raw.handle),
                                             Update(t.raw.target, p.level, p.offset.value, DriverOrder(p.data.shape, t.raw.target.Ndim()),
                                                    format, GlTypeOf(p.data.dtype).value)]
  {
    var c1 := GlBindTexture(c, t.raw.target, t.raw.handle);
    if t.raw.handle <= 0 || !GlIsTexture(c1, t.raw.handle) then Raised(World(t, c1), NoTextureToUpdate)
    else
      match UpdateData(t.raw, c1, p.data, p.offset.value, format, p.level)
      case Ok(c2) => Returned(World(t, c2))
      case Err(e) => Raised(World(t, c1), e)
  }

  /** The start of a re-upload: delete the old texture, generate a new
      name and bind it. */
  function Recreate(r: Raw, c: Context): (res: (Raw, Context))
    ensures res.0 == r.(handle := res.0.handle)
    ensures Binding(res.1, r.target) == res.0.handle
    ensures c.Valid() ==> res.1.Valid()
    ensures c.current && c.Valid() ==> res.0.handle > 0 && res.0.handle !in c.live && GlIsTexture(res.1, res.0.handle)
    ensures !c.current ==> res.0.handle == 0
    ensures res.1.current == c.current && res.1.enableQueue == c.enableQueue && res.1.enabled == c.enabled
    ensures res.1.objectParams == c.objectParams && c.trace <= res.1.trace
    // the calls: the old texture is deleted when there is one to delete
    ensures c.current && r.handle > 0 ==>
              Since(c, res.1) == [Event.Delete(r.handle), Gen(res.0.handle), Bind(r.target, res.0.handle)]
    ensures !(c.current && r.handle > 0) ==> Since(c, res.1) == [Gen(res.0.handle), Bind(r.target, res.0.handle)]
    ensures c.current && c.Valid() && r.handle in c.live ==> r.handle !in res.1.live && res.0.handle != r.handle
  {
    var (r1, c1) := RawTexture.Delete(r, c);
    var (r2, c2) := Create(r1, c1);
    (r2, GlBindTexture(c2, r.target, r2.handle))
  }

  /** Fill the bound texture: upload the pending data, or allocate storage
      of the recorded shape (which a failed `set_data` may have cleared). */
  function Store(r: Raw, c: Context, p: Pending, format: PixelFormat, shape: Option<seq<int>>): (res: Result<Context>)
    ensures p.PendingStorage? ==> (res.Ok? <==> shape.Some?)
    ensures p.PendingData? ==> (res.Ok? <==> GlTypeOf(p.data.dtype).Ok? && |p.data.shape| > 0)
    ensures res.Ok? ==> res.value == c.(trace := res.value.trace, unpackAlignment := res.value.unpackAlignment)
    ensures res.Ok? ==> c.trace <= res.value.trace
    // storage is one data-less image call with the recorded shape in driver order
    ensures p.PendingStorage? && shape.Some? ==>
              res == Ok(c.(trace := c.trace + [Allocate(r.target, p.level, format, DriverOrder(shape.value, r.target.Ndim()))]))
  {
    if p.PendingData? then UploadData(r, c, p.data, format, p.level)
    else if shape.None? then Err(MissingShape)
    else Ok(AllocateStorage(r, c, shape.value, format, p.level))
  }

  /** The re-upload branch of `_process_pending_data`: delete, re-create and
      bind, upload the data or allocate storage of the recorded shape, and
      replay every parameter; nothing is pending any more. */
  function PlaceUpload(t: Tex, c: Context, p: Pending, format: PixelFormat): (r: Outcome<World>)
    ensures r.state.tex == t.(raw := r.state.tex.raw, pendingParams := r.state.tex.pendingParams)
    ensures r.state.tex.raw == t.raw.(handle := r.state.tex.raw.handle)
    ensures r.state.gl.current == c.current && r.state.gl.enableQueue == c.enableQueue && r.state.gl.enabled == c.enabled
    ensures c.trace <= r.state.gl.trace
    ensures c.Valid() ==> r.state.gl.Valid()
    ensures c.current && c.Valid() ==> r.state.tex.raw.handle > 0 && GlIsTexture(r.state.gl, r.state.tex.raw.handle)
    ensures !c.current ==> r.state.tex.raw.handle == 0
    ensures c.current && c.Valid() ==> r.state.tex.raw.handle !in c.live
    ensures r.Returned? ==> r.state.tex.pendingParams == []
    // it returns exactly when there is something to store: a known shape for
    // storage, a driver type and a non-empty shape for data
    ensures r.Returned? <==> if p.PendingStorage? then t.shape.Some?
                             else GlTypeOf(p.data.dtype).Ok? && |p.data.shape| > 0
  {
    var (r2, c3) := Recreate(t.raw, c);
    var t3 := t.(raw := r2);
    match Store(r2, c3, p, format, t.shape)
    case Err(e) => Raised(World(t3, c3), e)
    case Ok(c4) => Returned(World(t3.(pendingParams := []), Replay(c4, t.raw.target, t.params)))
  }

  /** `_process_pending_data` after conversion: the format is the given one
      or the one the shape implies; a truthy offset means an update,
      anything else a re-upload. */
  function Place(t: Tex, c: Context, p: Pending): (r: Outcome<World>)
    ensures var shape := if p.PendingData? then Some(p.data.shape) else t.shape;
            ResolveFormat(p.format, shape, t.raw.target).Err? ==>
              r == Raised(World(t, c), ResolveFormat(p.format, shape, t.raw.target).error)
    ensures r.state.tex.raw.target == t.raw.target && r.state.tex.raw.unit == t.raw.unit
    ensures r.state.tex.params == t.params && r.state.tex.pending == t.pending && r.state.tex.shape == t.shape
    ensures r.state.gl.current == c.current && r.state.gl.enableQueue == c.enableQueue && r.state.gl.enabled == c.enabled
    ensures c.trace <= r.state.gl.trace
    ensures c.Valid() ==> r.state.gl.Valid()
    ensures IsUpdate(p) ==> r.state.tex == t
    ensures r.Returned? && !IsUpdate(p) ==> r.state.tex.pendingParams == []
    ensures r.state.tex.pendingParams == [] || r.state.tex.pendingParams == t.pendingParams
    ensures c.Valid() && t.raw.handle >= 0 ==> r.state.tex.raw.handle >= 0
    // once a format is known, a truthy offset writes in place and anything else re-uploads
    ensures var shape := if p.PendingData? then Some(p.data.shape) else t.shape;
            var f := ResolveFormat(p.format, shape, t.raw.target);
            f.Ok? ==> r == if IsUpdate(p) then PlaceUpdate(t, c, p, f.value) else PlaceUpload(t, c, p, f.value)
  {
    var shape := if p.PendingData? then Some(p.data.shape) else t.shape;
    match ResolveFormat(p.format, shape, t.raw.target)
    case Err(e) => Raised(World(t, c), e)
    case Ok(format) =>
      if IsUpdate(p) then PlaceUpdate(t, c, p, format) else PlaceUpload(t, c, p, format)
  }

  /** `_process_pending_data`: convert pending data to an element type the
      driver takes, then place it. */
  function ProcessPending(t: Tex, c: Context, p: Pending, caps: Caps): (r: Outcome<World>)
    ensures r.state.tex.raw.target == t.raw.target && r.state.tex.raw.unit == t.raw.unit
    ensures r.state.tex.params == t.params && r.state.tex.pending == t.pending && r.state.tex.shape == t.shape
    ensures r.state.gl.current == c.current && r.state.gl.enableQueue == c.enableQueue && r.state.gl.enabled == c.enabled
    ensures c.trace <= r.state.gl.trace
    ensures c.Valid() ==> r.state.gl.Valid()
    ensures p.PendingData? && p.data.dtype.Unknown? ==> r == Raised(World(t, c), UnknownDType)
    ensures p.PendingData? && p.data.dtype != Bool && ZeroSpan(p.clim) ==> r.Raised? && r.state == World(t, c)
    ensures p.PendingData? && ConvertData(p.data.dtype, p.clim, caps).Err? ==>
              r == Raised(World(t, c), ConvertData(p.data.dtype, p.clim, caps).error)
    ensures r.Returned? && !IsUpdate(p) ==> r.state.tex.pendingParams == []
    ensures r.state.tex.pendingParams == [] || r.state.tex.pendingParams == t.pendingParams
    ensures c.Valid() && t.raw.handle >= 0 ==> r.state.tex.raw.handle >= 0
    // storage needs no conversion; converted data is placed with its new element type
    ensures p.PendingStorage? ==> r == Place(t, c, p)
    ensures p.PendingData? && ConvertData(p.data.dtype, p.clim, caps).Ok? ==>
              r == Place(t, c, p.(data := Array(p.data.shape, ConvertData(p.data.dtype, p.clim, caps).value.dtype)))
  {
    match p
    case PendingStorage(_, _) => Place(t, c, p)
    case PendingData(data, _, _, _, clim) =>
      match ConvertData(data.dtype, clim, caps)
      case Err(e) => Raised(World(t, c), e)
      case Ok(cv) => Place(t, c, p.(data := Array(data.shape, cv.dtype)))
  }

  /** The end of `Texture._enable`: nothing to do without a handle, raise on
      a handle the driver does not know, otherwise bind through the raw
      texture and send the pending parameters, last set first. */
  function Activate(w: World): (r: Outcome<World>)
    ensures w.tex.raw.handle == 0 ==> r == Returned(w)
    ensures w.tex.raw.handle != 0 && !GlIsTexture(w.gl, w.tex.raw.handle) ==> r == Raised(w, InvalidHandle)
    ensures w.tex.raw.handle != 0 && GlIsTexture(w.gl, w.tex.raw.handle) ==> r.Returned?
    ensures r.Returned? && w.tex.raw.handle != 0 ==>
              && r.state.tex == w.tex.(pendingParams := [])
              && Binding(r.state.gl, w.tex.raw.target) == w.tex.raw.handle
              && Count(r.state.gl, w.tex.raw.target) == Count(w.gl, w.tex.raw.target) + 1
    ensures r.state.gl.live == w.gl.live && r.state.gl.current == w.gl.current
    ensures w.gl.trace <= r.state.gl.trace
    ensures r.state.tex == w.tex.(pendingParams := r.state.tex.pendingParams)
    ensures w.gl.Valid() ==> r.state.gl.Valid()
  {
    var t := w.tex;
    if t.raw.handle == 0 then Returned(w)
    else if !GlIsTexture(w.gl, t.raw.handle) then Raised(w, InvalidHandle)
    else
      var c1 := RawEnable(t.raw, w.gl);
      Returned(World(t.(pendingParams := []), Drain(c1, t.raw.target, t.pendingParams)))
  }

  /** `Texture._enable` (and so `__enter__`): an errored texture stays
      inert; a 3D texture without the extension becomes errored; pending
      data is consumed and processed, and a texture that is not valid
      afterwards becomes errored; then the texture is activated. */
  function Enable(t: Tex, c: Context, caps: Caps): (r: Outcome<World>)
    ensures t.raw.handle < 0 ==> r == Returned(World(t, c))
    ensures t.raw.target == Texture3D && !caps.texture3D && t.raw.handle >= 0 ==>
              r == Returned(World(t.(raw := t.raw.(handle := -1)), c))
    ensures r.state.tex.raw.target == t.raw.target && r.state.tex.raw.unit == t.raw.unit
    ensures r.state.tex.params == t.params && r.state.tex.shape == t.shape
    ensures t.raw.handle >= 0 && (t.raw.target != Texture3D || caps.texture3D) ==> r.state.tex.pending.None?
    ensures r.state.gl.current == c.current && c.trace <= r.state.gl.trace
    ensures c.Valid() ==> r.state.gl.Valid()
  {
    if t.raw.handle < 0 then Returned(World(t, c))
    else if t.raw.target == Texture3D && !caps.texture3D then Returned(World(t.(raw := t.raw.(handle := -1)), c))
    else if t.pending.None? then Activate(World(t, c))
    else FinishEnable(ProcessPending(t.(pending := None), c, t.pending.value, caps))
  }

  /** What `_enable` does after processing pending data: a raise passes
      through; a texture the driver does not know becomes errored;
      otherwise it is activated. */
  function FinishEnable(r: Outcome<World>): (res: Outcome<World>)
    ensures res.state.tex.raw.target == r.state.tex.raw.target && res.state.tex.raw.unit == r.state.tex.raw.unit
    ensures res.state.tex.params == r.state.tex.params && res.state.tex.shape == r.state.tex.shape
    ensures res.state.tex.pending == r.state.tex.pending
    ensures res.state.gl.current == r.state.gl.current && r.state.gl.trace <= res.state.gl.trace
    ensures r.state.gl.Valid() ==> res.state.gl.Valid()
  {
    match r
    case Raised(w, e) => Raised(w, e)
    case Returned(w) =>
      if !GlIsTexture(w.gl, w.tex.raw.handle) then Returned(w.(tex := w.tex.(raw := w.tex.raw.(handle := -1))))
      else Activate(w)
  }

  /** `__exit__`, which is `_RawTexture._disable` for a texture. */
  function Disable(t: Tex, c: Context): (r: World)
    ensures r.tex == t.(raw := r.tex.raw) && r.tex.raw == t.raw.(unit := r.tex.raw.unit) && r.tex.raw.unit < 0
    ensures Binding(r.gl, t.raw.target) == 0 && r.gl.activeUnit == 0
    ensures Count(r.gl, t.raw.target) == if Count(c, t.raw.target) == 0 then 0 else Count(c, t.raw.target) - 1
    ensures r.gl.live == c.live && r.gl.objectParams == c.objectParams && r.gl.current == c.current
    ensures c.trace <= r.gl.trace
  {
    var (raw, c1) := RawDisable(t.raw, c);
    World(t.(raw := raw), c1)
  }

  /** `delete()` on a texture: the handle is released and becomes 0; the
      shape, pending data and parameters are kept. */
  function DeleteTexture(t: Tex, c: Context): (r: World)
    ensures r.tex == t.(raw := t.raw.(handle := 0))
    ensures t.raw.handle > 0 && c.current ==> !GlIsTexture(r.gl, t.raw.handle)
    ensures r.gl.objectParams == c.objectParams && r.gl.enableQueue == c.enableQueue && c.trace <= r.gl.trace
    ensures c.Valid() ==> r.gl.Valid()
  {
    var (raw, c1) := RawTexture.Delete(t.raw, c);
    World(t.(raw := raw), c1)
  }
}

=== FILE: texture_props.dfy ===
/** Properties of the `Texture` class that span several calls: the object
    invariant, parameters reaching the driver, the fast update path, the
    first upload, and how entering and exiting drive the enable counter. */
module TextureProps {
  import opened Results
  import opened Gl
  import opened Formats
  import opened Params
  import opened EnableQueue
  import opened RawTexture
  import opened Texture

  // ---------------------------------------------------------------- invariant

  /** Enabling keeps the object invariant, whether it returns or raises. */
  lemma EnableKeepsValid(t: Tex, c: Context, caps: Caps)
    requires Valid(t)
    ensures Valid(Enable(t, c, caps).state.tex)
  {
    if t.raw.handle >= 0 && (t.raw.target != Texture3D || caps.texture3D) && t.pending.Some? {
      var pr := ProcessPending(t.(pending := None), c, t.pending.value, caps);
      assert Valid(pr.state.tex);
    }
  }

  /** Exiting and deleting keep the object invariant too. */
  lemma DisableDeleteKeepValid(t: Tex, c: Context)
    requires Valid(t)
    ensures Valid(Disable(t, c).tex) && Valid(DeleteTexture(t, c).tex)
  {
  }

  // ---------------------------------------------------------------- parameters

  /** Every parameter the user set is held by the texture object the handle names. */
  ghost predicate AllApplied(w: World) {
    forall p :: Lookup(w.tex.params, p).Some? ==> ParamOf(w.gl, w.tex.raw.handle, p) == Lookup(w.tex.params, p)
  }

  /** A resident texture holds every parameter that is no longer pending. */
  ghost predicate Synced(w: World) {
    w.tex.raw.handle > 0 ==>
      forall p :: Lookup(w.tex.params, p).Some? && Lookup(w.tex.pendingParams, p).None? ==>
        ParamOf(w.gl, w.tex.raw.handle, p) == Lookup(w.tex.params, p)
  }

  /** A re-upload that returns has replayed every parameter onto the new texture. */
  lemma PlaceUploadApplies(t: Tex, c: Context, p: Pending, format: PixelFormat)
    requires UniqueKeys(t.params)
    ensures PlaceUpload(t, c, p, format).Returned? ==> AllApplied(PlaceUpload(t, c, p, format).state)
  {
    var (r2, c3) := Recreate(t.raw, c);
    var stored := Store(r2, c3, p, format, t.shape);
    if stored.Ok? {
      assert Binding(stored.value, t.raw.target) == r2.handle;
      ReplayApplies(stored.value, t.raw.target, t.params);
    }
  }

  /** Processing pending data keeps resident parameters in place, and a
      re-upload leaves every parameter applied. */
  lemma ProcessPendingSyncs(t: Tex, c: Context, p: Pending, caps: Caps)
    requires UniqueKeys(t.params) && Synced(World(t, c))
    ensures var r := ProcessPending(t, c, p, caps);
            r.Returned? ==> Synced(r.state) && (!IsUpdate(p) ==> AllApplied(r.state))
  {
    var q := if p.PendingData? && ConvertData(p.data.dtype, p.clim, caps).Ok?
             then p.(data := Array(p.data.shape, ConvertData(p.data.dtype, p.clim, caps).value.dtype))
             else p;
    assert IsUpdate(q) == IsUpdate(p);
    var shape := if q.PendingData? then Some(q.data.shape) else t.shape;
    var f := ResolveFormat(q.format, shape, t.raw.target);
    if f.Ok? && !IsUpdate(q) {
      PlaceUploadApplies(t, c, q, f.value);
    }
  }

  /** Activating a synced texture sends the pending parameters, after which
      every parameter is applied. */
  lemma ActivateSyncs(w: World)
    requires Valid(w.tex) && Synced(w) && w.tex.raw.handle >= 0
    ensures Synced(Activate(w).state)
    ensures Activate(w).Returned? && w.tex.raw.handle != 0 ==> AllApplied(Activate(w).state)
  {
    var t := w.tex;
    if t.raw.handle != 0 && GlIsTexture(w.gl, t.raw.handle) {
      var c1 := RawEnable(t.raw, w.gl);
      DrainApplies(c1, t.raw.target, t.pendingParams);
      var r := Drain(c1, t.raw.target, t.pendingParams);
      forall p | Lookup(t.params, p).Some?
        ensures ParamOf(r, t.raw.handle, p) == Lookup(t.params, p)
      {
        if Lookup(t.pendingParams, p).None? {
          assert ParamOf(c1, t.raw.handle, p) == ParamOf(w.gl, t.raw.handle, p);
        }
      }
    }
  }

  /** The parameter guarantee of `_enable`: after an enable that returns
      with a resident texture, the texture object holds the latest value of
      every parameter ever set on it, and nothing is pending. */
  lemma {:induction false} EnableAppliesParams(t: Tex, c: Context, caps: Caps)
    requires Valid(t) && c.Valid() && Synced(World(t, c))
    ensures var r := Enable(t, c, caps);
            && (r.Returned? ==> Synced(r.state))
            && (r.Returned? && r.state.tex.raw.handle > 0 ==> AllApplied(r.state) && r.state.tex.pendingParams == [])
  {
    if t.raw.handle >= 0 && (t.raw.target != Texture3D || caps.texture3D) {
      if t.pending.None? {
        ActivateSyncs(World(t, c));
      } else {
        var t1 := t.(pending := None);
        var pr := ProcessPending(t1, c, t.pending.value, caps);
        ProcessPendingSyncs(t1, c, t.pending.value, caps);
        if pr.Returned? && GlIsTexture(pr.state.gl, pr.state.tex.raw.handle) {
          assert Valid(pr.state.tex);
          ActivateSyncs(pr.state);
          assert Enable(t, c, caps) == Activate(pr.state);
        }
      }
    }
  }

  /** `set_data` does not reach the driver and keeps a synced texture synced. */
  lemma SetDataKeepsSynced(t: Tex, c: Context, data: Array, offset: Option<seq<int>>, level: int,
                           format: Option<PixelFormat>, clim: Option<Clim>)
    requires Valid(t) && Synced(World(t, c))
    ensures Synced(World(SetData(t, data, offset, level, format, clim).state, c))
  {
  }

  /** `set_storage` does not reach the driver and keeps a synced texture synced. */
  lemma SetStorageKeepsSynced(t: Tex, c: Context, shape: seq<int>, level: int, format: Option<PixelFormat>)
    requires Valid(t) && Synced(World(t, c))
    ensures Synced(World(SetStorage(t, shape, level, format).state, c))
  {
  }

  /** `set_parameter` marks the parameter pending, so the others stay synced. */
  lemma SetParameterKeepsSynced(t: Tex, c: Context, param: Param, value: int, names: map<string, int>)
    requires Synced(World(t, c)) && SetParameter(t, param, value, names).Ok?
    ensures Synced(World(SetParameter(t, param, value, names).value, c))
  {
  }

  /** Choosing a unit, exiting and deleting keep a synced texture synced. */
  lemma UnitExitDeleteKeepSynced(t: Tex, c: Context, unit: int)
    requires Synced(World(t, c))
    ensures Synced(World(SetUnit(t, unit), c))
    ensures Synced(Disable(t, c)) && Synced(DeleteTexture(t, c))
  {
  }

  // ---------------------------------------------------------------- uploads

  /** No texture was created, deleted or re-specified. */
  predicate NoRecreation(events: seq<Event>) {
    forall e :: e in events ==> !e.Gen? && !e.Delete? && !e.Upload? && !e.Allocate?
  }

  lemma NoRecreationAppend(a: seq<Event>, b: seq<Event>)
    requires NoRecreation(a) && NoRecreation(b)
    ensures NoRecreation(a + b)
  {
    forall e | e in a + b ensures !e.Gen? && !e.Delete? && !e.Upload? && !e.Allocate? {
      assert e in a || e in b;
    }
  }

  /** `_RawTexture._enable` sends only enable, unit and bind calls. */
  lemma RawEnableEvents(r: Raw, c: Context)
    ensures c.trace <= RawEnable(r, c).trace
    ensures NoRecreation(Since(c, RawEnable(r, c)))
  {
    var pre := Since(c, RawEnable(r, c));
    var enable := if Count(c, r.target) == 0 then [Enabled(r.target)] else [];
    var unit := if r.unit >= 0 then [ActiveTexture(r.unit)] else [];
    assert pre == enable + unit + [Bind(r.target, r.handle)];
    NoRecreationAppend(enable, unit);
    NoRecreationAppend(enable + unit, [Bind(r.target, r.handle)]);
  }

  /** Activating sends only enable, unit, bind and parameter calls. */
  lemma ActivateEvents(w: World)
    ensures w.gl.trace <= Activate(w).state.gl.trace
    ensures NoRecreation(Since(w.gl, Activate(w).state.gl))
  {
    var t := w.tex;
    if t.raw.handle != 0 && GlIsTexture(w.gl, t.raw.handle) {
      var c1 := RawEnable(t.raw, w.gl);
      var c2 := Drain(c1, t.raw.target, t.pendingParams);
      assert Activate(w).state.gl == c2;
      RawEnableEvents(t.raw, w.gl);
      DrainSendsParams(c1, t.raw.target, t.pendingParams);
      SinceAppend(w.gl, c1, c2);
      NoRecreationAppend(Since(w.gl, c1), Since(c1, c2));
    }
  }

  /** Processing pending data with an offset into a resident texture binds
      it and writes the data there, and changes nothing else. */
  lemma ProcessPendingUpdates(t: Tex, c: Context, p: Pending, caps: Caps)
    requires IsUpdate(p) && ConvertData(p.data.dtype, p.clim, caps).Ok? && t.raw.handle > 0 && GlIsTexture(c, t.raw.handle)
    requires |p.offset.value| == |Take(p.data.shape, t.raw.target.Ndim())|
    requires ResolveFormat(p.format, Some(p.data.shape), t.raw.target).Ok?
    ensures var r := ProcessPending(t, c, p, caps);
            && r.Returned? && r.state.tex == t && r.state.gl.live == c.live
            && c.trace <= r.state.gl.trace
            && |Since(c, r.state.gl)| == 2
            && Since(c, r.state.gl)[0] == Bind(t.raw.target, t.raw.handle)
            && var e := Since(c, r.state.gl)[1];
               && e.Update? && e.target == t.raw.target && e.level == p.level && e.offset == p.offset.value
               && e.size == DriverOrder(p.data.shape, t.raw.target.Ndim())
  {
    var cv := ConvertData(p.data.dtype, p.clim, caps).value;
    var q := p.(data := Array(p.data.shape, cv.dtype));
    var fmt := ResolveFormat(p.format, Some(p.data.shape), t.raw.target).value;
    assert ProcessPending(t, c, p, caps) == Place(t, c, q);
    assert Place(t, c, q) == PlaceUpdate(t, c, q, fmt);
  }

  /** Enabling a texture with pending data is processing followed by the
      finishing steps. */
  lemma EnableWithPending(t: Tex, c: Context, caps: Caps)
    requires t.raw.handle >= 0 && (t.raw.target != Texture3D || caps.texture3D) && t.pending.Some?
    ensures Enable(t, c, caps) == FinishEnable(ProcessPending(t.(pending := None), c, t.pending.value, caps))
  {
  }

  /** Enabling a usable texture with nothing pending is just activation. */
  lemma EnableWithoutPending(t: Tex, c: Context, caps: Caps)
    requires t.raw.handle >= 0 && (t.raw.target != Texture3D || caps.texture3D) && t.pending.None?
    ensures Enable(t, c, caps) == Activate(World(t, c))
  {
  }

  /** After processing: a raise passes through with the pending data
      already consumed; a texture the driver does not know becomes errored
      (handle -1) with no further call, and later enables leave it alone. */
  lemma EnableAfterProcessing(t: Tex, c: Context, caps: Caps)
    requires t.raw.handle >= 0 && (t.raw.target != Texture3D || caps.texture3D) && t.pending.Some?
    ensures var pr := ProcessPending(t.(pending := None), c, t.pending.value, caps);
            var r := Enable(t, c, caps);
            && (pr.Raised? ==> r == pr && r.state.tex.pending.None?)
            && (pr.Returned? && !GlIsTexture(pr.state.gl, pr.state.tex.raw.handle) ==>
                  && r == Returned(World(pr.state.tex.(raw := pr.state.tex.raw.(handle := -1)), pr.state.gl))
                  && Enable(r.state.tex, r.state.gl, caps) == Returned(r.state))
  {
  }

  /** `set_data` without an offset on a resident texture of the same
      shape records a write at offset zero. */
  lemma SetDataSameShape(t: Tex, data: Array, level: int, format: Option<PixelFormat>, clim: Option<Clim>)
    requires t.raw.target.Supported() && t.raw.handle > 0 && t.shape == Some(data.shape)
    requires |data.shape| == t.raw.target.Ndim() || |data.shape| == t.raw.target.Ndim() + 1
    requires level >= 0 && FormatOk(format)
    ensures SetData(t, data, None, level, format, clim) ==
              Returned(t.(pending := Some(PendingData(data, Some(Zeros(t.raw.target.Ndim())), level, format, clim))))
  {
  }

  /** Enabling with a pending write into the resident texture: a bind and
      the sub-image write, then the enable's own calls. */
  lemma {:induction false} EnableWithUpdate(t: Tex, c: Context, caps: Caps)
    requires t.pending.Some? && IsUpdate(t.pending.value)
    requires ConvertData(t.pending.value.data.dtype, t.pending.value.clim, caps).Ok?
    requires t.raw.handle > 0 && GlIsTexture(c, t.raw.handle)
    requires |t.pending.value.offset.value| == |Take(t.pending.value.data.shape, t.raw.target.Ndim())|
    requires ResolveFormat(t.pending.value.format, Some(t.pending.value.data.shape), t.raw.target).Ok?
    requires t.raw.target == Texture2D || caps.texture3D
    ensures var p := t.pending.value;
            var r := Enable(t, c, caps);
            && r.Returned? && r.state.tex.raw.handle == t.raw.handle && r.state.gl.live == c.live
            && c.trace <= r.state.gl.trace && |Since(c, r.state.gl)| >= 2
            && Since(c, r.state.gl)[0] == Bind(t.raw.target, t.raw.handle)
            && Since(c, r.state.gl)[1].Update?
            && Since(c, r.state.gl)[1].offset == p.offset.value
            && Since(c, r.state.gl)[1].level == p.level
            && Since(c, r.state.gl)[1].size == DriverOrder(p.data.shape, t.raw.target.Ndim())
            && NoRecreation(Since(c, r.state.gl))
  {
    var p := t.pending.value;
    var tp := t.(pending := None);
    ProcessPendingUpdates(tp, c, p, caps);
    EnableWithPending(t, c, caps);
    var w := ProcessPending(tp, c, p, caps).state;
    var fin := Activate(w).state.gl;
    assert Enable(t, c, caps) == Activate(w);
    ActivateEvents(w);
    SinceAppend(c, w.gl, fin);
    var first := Since(c, w.gl);
    forall e | e in first ensures !e.Gen? && !e.Delete? && !e.Upload? && !e.Allocate? {
      assert e == first[0] || e == first[1];
    }
    NoRecreationAppend(first, Since(w.gl, fin));
    assert Since(c, fin)[0] == first[0] && Since(c, fin)[1] == first[1];
  }

  /** The fast path: `set_data` with data of the shape the resident texture
      already has becomes, at the next enable, a bind and a sub-image write
      at offset zero into the same texture, followed by the enable's own
      calls; nothing is deleted, generated, uploaded or allocated. */
  lemma SameShapeUpdatesInPlace(t: Tex, c: Context, data: Array, level: int,
                                format: Option<PixelFormat>, clim: Option<Clim>, caps: Caps)
    requires t.raw.target.Supported() && t.raw.handle > 0 && GlIsTexture(c, t.raw.handle)
    requires t.shape == Some(data.shape)
    requires |data.shape| == t.raw.target.Ndim() || |data.shape| == t.raw.target.Ndim() + 1
    requires level >= 0 && FormatOk(format) && ConvertData(data.dtype, clim, caps).Ok?
    requires ResolveFormat(format, Some(data.shape), t.raw.target).Ok?
    requires t.raw.target == Texture2D || caps.texture3D
    ensures SetData(t, data, None, level, format, clim).Returned?
    ensures var r := Enable(SetData(t, data, None, level, format, clim).state, c, caps);
            && r.Returned? && r.state.tex.raw.handle == t.raw.handle && r.state.gl.live == c.live
            && c.trace <= r.state.gl.trace && |Since(c, r.state.gl)| >= 2
            && Since(c, r.state.gl)[0] == Bind(t.raw.target, t.raw.handle)
            && Since(c, r.state.gl)[1].Update?
            && Since(c, r.state.gl)[1].offset == Zeros(t.raw.target.Ndim())
            && Since(c, r.state.gl)[1].level == level
            && DriverSize(Since(c, r.state.gl)[1].size, data.shape, t.raw.target.Ndim())
            && NoRecreation(Since(c, r.state.gl))
  {
    var n := t.raw.target.Ndim();
    SetDataSameShape(t, data, level, format, clim);
    EnableWithUpdate(t.(pending := Some(PendingData(data, Some(Zeros(n)), level, format, clim))), c, caps);
  }

  /** A returning re-upload of pending data sends an upload call. */
  lemma PlaceUploadUploads(t: Tex, c: Context, p: Pending, format: PixelFormat)
    requires p.PendingData? && PlaceUpload(t, c, p, format).Returned?
    ensures exists e :: e in Since(c, PlaceUpload(t, c, p, format).state.gl) && e.Upload? && e.target == t.raw.target && e.level == p.level
  {
    var (r2, c3) := Recreate(t.raw, c);
    var c4 := UploadData(r2, c3, p.data, format, p.level).value;
    var c5 := Replay(c4, t.raw.target, t.params);
    assert PlaceUpload(t, c, p, format).state.gl == c5;
    SinceAppend(c, c3, c4);
    SinceAppend(c, c4, c5);
    var a := Alignment(p.data.shape[|p.data.shape| - 1]);
    var k := if a != 4 then 1 else 0;
    assert Since(c3, c4)[k].Upload?;
    assert Since(c3, c4)[k] in Since(c, c5);
  }

  /** A returning re-upload of pending storage deletes the old texture when
      there is one, and allocates storage of the recorded shape. */
  lemma PlaceUploadAllocates(t: Tex, c: Context, p: Pending, format: PixelFormat)
    requires p.PendingStorage? && PlaceUpload(t, c, p, format).Returned?
    ensures t.shape.Some?
    ensures var s := Since(c, PlaceUpload(t, c, p, format).state.gl);
            && Allocate(t.raw.target, p.level, format, DriverOrder(t.shape.value, t.raw.target.Ndim())) in s
            && (c.current && t.raw.handle > 0 ==> s[0] == Event.Delete(t.raw.handle))
  {
    var (r2, c3) := Recreate(t.raw, c);
    var c4 := Store(r2, c3, p, format, t.shape).value;
    var c5 := Replay(c4, t.raw.target, t.params);
    assert PlaceUpload(t, c, p, format).state.gl == c5;
    SinceAppend(c, c3, c4);
    SinceAppend(c, c4, c5);
    assert Since(c3, c4)[0] in Since(c, c5);
  }

  /** The first enable after `set_data` on a texture without a name, in a
      current context: a fresh texture is generated, bound, filled by an
      upload of the data, and holds every parameter. */
  lemma {:induction false} FirstEnableUploads(t: Tex, c: Context, caps: Caps)
    requires Valid(t) && c.current && c.Valid() && t.raw.handle == 0
    requires t.pending.Some? && t.pending.value.PendingData? && t.pending.value.offset.None?
    requires ConvertData(t.pending.value.data.dtype, t.pending.value.clim, caps).Ok?
    requires ResolveFormat(t.pending.value.format, Some(t.pending.value.data.shape), t.raw.target).Ok?
    requires t.raw.target == Texture2D || caps.texture3D
    ensures var r := Enable(t, c, caps);
            && r.Returned? && r.state.tex.raw.handle > 0 && r.state.tex.raw.handle !in c.live
            && GlIsTexture(r.state.gl, r.state.tex.raw.handle)
            && Binding(r.state.gl, t.raw.target) == r.state.tex.raw.handle
            && c.trace <= r.state.gl.trace
            && (exists e :: e in Since(c, r.state.gl) && e.Upload? && e.target == t.raw.target && e.level == t.pending.value.level)
            && AllApplied(r.state)
  {
    var p := t.pending.value;
    var tp := t.(pending := None);
    var cv := ConvertData(p.data.dtype, p.clim, caps).value;
    var q := p.(data := Array(p.data.shape, cv.dtype));
    var fmt := ResolveFormat(p.format, Some(p.data.shape), t.raw.target).value;
    var pr := ProcessPending(tp, c, p, caps);
    assert pr == PlaceUpload(tp, c, q, fmt);
    assert pr.Returned?;
    PlaceUploadUploads(tp, c, q, fmt);
    PlaceUploadApplies(tp, c, q, fmt);
    var w := pr.state;
    assert Synced(w);
    assert Enable(t, c, caps) == Activate(w);
    ActivateSyncs(w);
    ActivateEvents(w);
    SinceAppend(c, w.gl, Activate(w).state.gl);
  }

  /** Enabling after `set_data` with data of a new shape, on a texture that
      may already exist: the old texture is deleted, a fresh one is
      generated, bound and filled by an upload, and holds every parameter. */
  lemma {:induction false} EnableReuploadsData(t: Tex, c: Context, caps: Caps)
    requires Valid(t) && c.current && c.Valid() && t.raw.handle >= 0
    requires t.pending.Some? && t.pending.value.PendingData? && !IsUpdate(t.pending.value)
    requires ConvertData(t.pending.value.data.dtype, t.pending.value.clim, caps).Ok?
    requires ResolveFormat(t.pending.value.format, Some(t.pending.value.data.shape), t.raw.target).Ok?
    requires t.raw.target == Texture2D || caps.texture3D
    ensures var r := Enable(t, c, caps);
            && r.Returned? && r.state.tex.raw.handle > 0 && r.state.tex.raw.handle !in c.live
            && GlIsTexture(r.state.gl, r.state.tex.raw.handle)
            && Binding(r.state.gl, t.raw.target) == r.state.tex.raw.handle
            && c.trace <= r.state.gl.trace
            && (t.raw.handle > 0 ==> Since(c, r.state.gl)[0] == Event.Delete(t.raw.handle))
            && (exists e :: e in Since(c, r.state.gl) && e.Upload? && e.target == t.raw.target && e.level == t.pending.value.level)
            && AllApplied(r.state)
  {
    var p := t.pending.value;
    var tp := t.(pending := None);
    var cv := ConvertData(p.data.dtype, p.clim, caps).value;
    var q := p.(data := Array(p.data.shape, cv.dtype));
    var fmt := ResolveFormat(p.format, Some(p.data.shape), t.raw.target).value;
    var pr := ProcessPending(tp, c, p, caps);
    assert pr == PlaceUpload(tp, c, q, fmt);
    assert pr.Returned?;
    PlaceUploadUploads(tp, c, q, fmt);
    PlaceUploadApplies(tp, c, q, fmt);
    var w := pr.state;
    assert Synced(w);
    assert Enable(t, c, caps) == Activate(w);
    ActivateSyncs(w);
    ActivateEvents(w);
    SinceAppend(c, w.gl, Activate(w).state.gl);
    if t.raw.handle > 0 {
      var (r2, c3) := Recreate(tp.raw, c);
      SinceAppend(c, c3, w.gl);
      assert Since(c, w.gl)[0] == Event.Delete(t.raw.handle);
    }
  }

  /** Enabling after `set_storage`: the old texture is deleted when there
      is one, a fresh one is generated and bound, storage of the recorded
      shape is allocated, and every parameter is applied. */
  lemma {:induction false} EnableAllocatesStorage(t: Tex, c: Context, caps: Caps)
    requires Valid(t) && c.current && c.Valid() && t.raw.handle >= 0
    requires t.pending.Some? && t.pending.value.PendingStorage? && t.shape.Some?
    requires ResolveFormat(t.pending.value.format, t.shape, t.raw.target).Ok?
    requires t.raw.target == Texture2D || caps.texture3D
    ensures var r := Enable(t, c, caps);
            var fmt := ResolveFormat(t.pending.value.format, t.shape, t.raw.target).value;
            && r.Returned? && r.state.tex.raw.handle > 0 && r.state.tex.raw.handle !in c.live
            && GlIsTexture(r.state.gl, r.state.tex.raw.handle)
            && Binding(r.state.gl, t.raw.target) == r.state.tex.raw.handle
            && c.trace <= r.state.gl.trace
            && (t.raw.handle > 0 ==> Since(c, r.state.gl)[0] == Event.Delete(t.raw.handle))
            && Allocate(t.raw.target, t.pending.value.level, fmt, DriverOrder(t.shape.value, t.raw.target.Ndim())) in Since(c, r.state.gl)
            && AllApplied(r.state)
  {
    var p := t.pending.value;
    var tp := t.(pending := None);
    var fmt := ResolveFormat(p.format, t.shape, t.raw.target).value;
    var pr := ProcessPending(tp, c, p, caps);
    assert pr == PlaceUpload(tp, c, p, fmt);
    assert pr.Returned?;
    PlaceUploadAllocates(tp, c, p, fmt);
    PlaceUploadApplies(tp, c, p, fmt);
    var w := pr.state;
    assert Synced(w);
    assert Enable(t, c, caps) == Activate(w);
    ActivateSyncs(w);
    ActivateEvents(w);
    SinceAppend(c, w.gl, Activate(w).state.gl);
  }

  /** A deleted texture without new data stays empty: enabling it binds
      nothing and calls nothing. */
  lemma DeletedStaysEmpty(t: Tex, c: Context, caps: Caps)
    requires t.pending.None? && t.raw.handle >= 0
    requires t.raw.target == Texture2D || caps.texture3D
    ensures var w := DeleteTexture(t, c);
            Enable(w.tex, w.gl, caps) == Returned(w)
  {
  }

  // ---------------------------------------------------------------- enter / exit

  /** Activation pushes the target's enable exactly when it binds a texture. */
  lemma ActivateCounts(w: World)
    ensures Consistent(w.gl) ==> Consistent(Activate(w).state.gl)
    ensures Activate(w).Returned? ==>
              Count(Activate(w).state.gl, w.tex.raw.target) == Count(w.gl, w.tex.raw.target) + (if w.tex.raw.handle != 0 then 1 else 0)
    ensures Activate(w).Raised? ==> Activate(w).state == w
  {
    var t := w.tex;
    if t.raw.handle != 0 && GlIsTexture(w.gl, t.raw.handle) {
      if Consistent(w.gl) {
        RawEnableKeepsConsistent(t.raw, w.gl);
      }
    }
  }

  /** How `_enable` moves the enable counter: by one exactly when it ends
      with a resident texture, and never out of agreement with the driver. */
  lemma {:induction false} EnableCounts(t: Tex, c: Context, caps: Caps)
    requires c.Valid()
    ensures var r := Enable(t, c, caps);
            && (Consistent(c) ==> Consistent(r.state.gl))
            && (r.Returned? ==> Count(r.state.gl, t.raw.target) ==
                                  Count(c, t.raw.target) + (if r.state.tex.raw.handle > 0 then 1 else 0))
  {
    if t.raw.handle >= 0 && (t.raw.target != Texture3D || caps.texture3D) {
      if t.pending.None? {
        ActivateCounts(World(t, c));
      } else {
        var pr := ProcessPending(t.(pending := None), c, t.pending.value, caps);
        assert Count(pr.state.gl, t.raw.target) == Count(c, t.raw.target);
        assert Consistent(c) ==> Consistent(pr.state.gl);
        if pr.Returned? && GlIsTexture(pr.state.gl, pr.state.tex.raw.handle) {
          ActivateCounts(pr.state);
          assert Enable(t, c, caps) == Activate(pr.state);
        }
      }
    }
  }

  /** `with texture:` around a texture that ends up resident leaves the
      counter where it was, unbinds the texture, and keeps the counter and
      the driver in agreement. */
  lemma EnterExitBalanced(t: Tex, c: Context, caps: Caps)
    requires c.Valid() && Consistent(c)
    requires Enable(t, c, caps).Returned? && Enable(t, c, caps).state.tex.raw.handle > 0
    ensures var w := Enable(t, c, caps).state;
            var e := Disable(w.tex, w.gl);
            && Count(e.gl, t.raw.target) == Count(c, t.raw.target)
            && Binding(e.gl, t.raw.target) == 0
            && Consistent(e.gl)
            && (Count(c, t.raw.target) == 0 <==> t.raw.target !in e.gl.enabled)
  {
    EnableCounts(t, c, caps);
    var w := Enable(t, c, caps).state;
    RawDisableKeepsConsistent(w.tex.raw, w.gl);
  }

  /** `__exit__` pops even when `__enter__` returned without enabling (an
      errored texture, or one with no data yet): the counter drops below the
      number of matching pushes, and when another user held the target
      alone, its capability is disabled under it. */
  lemma ExitWithoutEnterPops(t: Tex, c: Context, caps: Caps)
    requires c.Valid() && Count(c, t.raw.target) > 0
    requires Enable(t, c, caps).Returned? && Enable(t, c, caps).state.tex.raw.handle <= 0
    ensures var w := Enable(t, c, caps).state;
            var e := Disable(w.tex, w.gl);
            && Count(e.gl, t.raw.target) == Count(c, t.raw.target) - 1
            && (Count(c, t.raw.target) == 1 ==> Disabled(t.raw.target) in Since(w.gl, e.gl))
  {
    EnableCounts(t, c, caps);
    var w := Enable(t, c, caps).state;
    var e := RawDisable(w.tex.raw, w.gl).1;
    assert Disable(w.tex, w.gl).gl == e;
    if Count(c, t.raw.target) == 1 {
      assert Since(w.gl, e)[|Since(w.gl, e)| - 1] == Disabled(t.raw.target);
    }
  }

  /** `texture(unit)` then `with texture:` selects that unit before binding,
      and the exit forgets the unit and returns to unit 0. */
  lemma CallThenEnableUsesUnit(t: Tex, c: Context, caps: Caps, unit: int)
    requires unit >= 0 && t.raw.handle > 0 && t.pending.None? && GlIsTexture(c, t.raw.handle)
    requires t.raw.target == Texture2D || caps.texture3D
    ensures var r := Enable(SetUnit(t, unit), c, caps);
            && r.Returned? && r.state.gl.activeUnit == unit
            && (exists i :: 0 <= i < |Since(c, r.state.gl)| - 1 &&
                  Since(c, r.state.gl)[i] == ActiveTexture(unit) && Since(c, r.state.gl)[i + 1] == Bind(t.raw.target, t.raw.handle))
            && Disable(r.state.tex, r.state.gl).tex.raw.unit < 0
            && Disable(r.state.tex, r.state.gl).gl.activeUnit == 0
  {
    var t1 := SetUnit(t, unit);
    EnableWithoutPending(t1, c, caps);
    var c1 := RawEnable(t1.raw, c);
    var c2 := Drain(c1, t.raw.target, t.pendingParams);
    assert Activate(World(t1, c)) == Returned(World(t1.(pendingParams := []), c2));
    assert c2.activeUnit == unit;
    SinceAppend(c, c1, c2);
    var enable := if Count(c, t.raw.target) == 0 then [Enabled(t.raw.target)] else [];
    assert Since(c, c1) == enable + [ActiveTexture(unit), Bind(t.raw.target, t.raw.handle)];
    assert Since(c, c2)[|enable|] == ActiveTexture(unit);
    assert Since(c, c2)[|enable| + 1] == Bind(t.raw.target, t.raw.handle);
  }
}
